=== FILE: README.md ===
# image-metadata-saver, modelled in Dafny

This project models the persistence rules of the Image Metadata Saver plugin for
a Stable Diffusion web UI. The plugin keeps each saved image in a
`saved_images` directory. Beside it, in a `metadata` directory, it writes a
JSON "sidecar" record with the same base name. It also keeps one `history.json`
list with a summary entry per save. An HTTP façade can save a gallery image,
read the history, read one metadata file and delete an image.

The model works over an abstract store, not the filesystem:

- images by file name;
- sidecar records by file name;
- the history file, which is missing, unreadable, or holds a list of entries.

Clock readings, the loaded model and the host's galleries are inputs.

| file | module | what it holds |
|---|---|---|
| `common.dfy` | `Common` | `Option`/`Result`; the faults and their HTTP status; Python values (text, integers, sized objects, other objects) with truthiness and `str()` |
| `naming.dfy` | `Naming` | the `image_{stamp}_{seed}` base name; `posixpath.join` and `posixpath.splitext`; `split('.')[0]`; what `os.path.exists` sees for a name without a slash |
| `records.dfy` | `Records` | the parameter object as a tagged union; `extract_metadata`; the seed and prompt lookups |
| `history.dfy` | `History` | entries, the prompt preview, load/append/filter; the stable newest-first order, as a function and as an in-place insertion sort on an array; the selection the history panel shows |
| `saver.dfy` | `Saver` | the store snapshot; the effect of one save; class `Store`, whose methods update its maps in place |
| `api.dfy` | `Api` | the filename guard; save-request resolution; the history, metadata and delete endpoints; round trips across endpoints |

In these places the code behaves in ways that are easy to misread; the model follows the code:

- The save endpoint catches its own HTTP errors (400 and 404). Every failure comes back as `success: false` (`scripts/api.py:67-73`), not as an HTTP status.
- Two saves that share a base name overwrite each other's image and sidecar. The history keeps an entry for each of them (`scripts/image_metadata_saver.py:115`), not only the latest.
- The seed goes into the file name as `str()` gives it, with no sanitising (`scripts/image_metadata_saver.py:85`).
- `get_metadata("history.json")` returns the history list, because the history file lives in the metadata directory.
- `delete_image("history.png")` derives the name `history.json` and removes the whole history file (`Api.DeleteHistoryImageErasesHistory`).
- A prompt that is not text does not always break a save. `len(prompt)` accepts a list, tuple or dict, so one of at most 100 items becomes the history preview as it is. Only a prompt without a length, or a longer non-text one, makes the history update fail (`scripts/image_metadata_saver.py:118`).
- `""` and `"."` pass the filename guard but name the directory itself. The existence test succeeds, and the later open or remove fails (`Fault.IsADirectory`).

## Model

| member | source | states |
|---|---|---|
| Common.StatusCode | scripts/api.py:31-99 | exactly a missing or unknown gallery id and an invalid file name are 400; exactly a missing gallery, index, image or metadata file is 404; the other faults are not HTTP errors |
| Common.NatToString | scripts/image_metadata_saver.py:85 | the decimal text of a number is non-empty, all digits, with no leading zero |
| Common.DecimalRoundTrip | scripts/image_metadata_saver.py:85 | reading the decimal text back gives the number again |
| Common.IntToString | scripts/image_metadata_saver.py:85 | `str()` of an int is digits with a leading minus sign exactly when the int is negative |
| Common.IntToStringValue | scripts/image_metadata_saver.py:85 | the digits of `str(n)` denote the magnitude of n |
| Common.IntToStringInjective | scripts/image_metadata_saver.py:85 | distinct integers print differently |
| Naming.BaseName | scripts/image_metadata_saver.py:84-85 | the base starts with `image_` and ends with the seed text, and its length is stamp + seed + 7 |
| Naming.BaseNameInjective | scripts/image_metadata_saver.py:84-85 | for stamps of one width, two bases are equal iff stamp and seed both are, so saves collide exactly then |
| Naming.Join | scripts/image_metadata_saver.py:88 | `posixpath.join`: the path ends with the name, and an absolute name replaces the directory |
| Naming.JoinInjective | scripts/image_metadata_saver.py:96 | within one directory, distinct relative names give distinct paths |
| Naming.FirstSegment | scripts/image_metadata_saver.py:119 | `split('.')[0]` is the longest dot-free prefix, and a dot follows it unless it is the whole string |
| Naming.SplitExt | scripts/api.py:119 | `posixpath.splitext`: root + ext is the name; ext is empty or one dot plus dot- and slash-free text; a leading run of dots is never an extension |
| Naming.SplitExtAtLastDot | scripts/api.py:119 | an extension starts at the last dot, inside the last path component; none is split off only when every dot of that component follows nothing but dots |
| Naming.SavedNameStem | scripts/image_metadata_saver.py:119 | for a base without dots or slashes, the first-dot split and the last-extension split of base.png both give the base back |
| Naming.OnDisk | scripts/image_metadata_saver.py:154-156 | for an ordinary name, existence is membership in the directory; "", "." and ".." always exist |
| Naming.DottedBaseStemsDiffer | scripts/image_metadata_saver.py:119 | with a dot inside the base, the history's first-dot split stops early while the last-extension split keeps the whole base |
| Records.GenerationParameters | scripts/image_metadata_saver.py:42-55 | prompts, steps, sampler, cfg scale and seed copy the processing object; size is `{width}x{height}`; batch size defaults to 1; model and hash are "unknown" without a loaded model; kind is the given one |
| Records.ExtractMetadata | scripts/image_metadata_saver.py:32-76 | empty filename; empty parameters for no object; for txt2img/img2img exactly the structured parameters of the processing object, typed "txt2img" exactly for txt2img; other objects' attributes copied; image info iff non-empty; parsed parameters iff truthy, copied verbatim |
| Records.SeedText | scripts/image_metadata_saver.py:85 | the seed's `str()`, or "unknown" when the parameters have no seed |
| Records.PromptOf | scripts/image_metadata_saver.py:118 | a structured record's prompt as text; an attribute prompt as the value it is; "" when there is none |
| Records.GenerationSeedIsFilenameSafe | scripts/image_metadata_saver.py:85 | a processing object's seed text has no dot, slash or backslash |
| Records.AbsentParametersFallBack | scripts/image_metadata_saver.py:85 | without a parameter object the seed text is "unknown" and the prompt is empty |
| History.Preview | scripts/image_metadata_saver.py:118 | the prompt verbatim up to 100 characters, else its first 100 plus "..."; never longer than 103 |
| History.PreviewOf | scripts/image_metadata_saver.py:118 | the preview succeeds iff the prompt is text or a sized value of at most 100 items; text is cut by Preview, a short sized value is kept; an unsized value fails in `len`, a long sized one in the cut |
| History.LoadHistory | scripts/image_metadata_saver.py:133-139 | the stored list, and the empty list for a missing or unparsable file |
| History.EntryFor | scripts/image_metadata_saver.py:115-120 | the entry copies stamp and filename, previews the prompt, and points at the first-dot stem + ".json" in the metadata directory; it fails exactly when the prompt's preview fails, with that fault |
| History.Appended | scripts/image_metadata_saver.py:107-124 | the rewritten file holds the loaded list with the new entry after it, earlier entries unchanged |
| History.AppendedKeepsDuplicates | scripts/image_metadata_saver.py:115 | appending never replaces: a repeated filename gets one more entry |
| History.WithoutFile | scripts/api.py:135 | an entry survives the filter iff it was there and names another file |
| History.WithoutFileConcat | scripts/api.py:135 | the filter keeps the relative order of the survivors |
| History.WithoutFileIdempotent | scripts/api.py:135 | filtering twice gives the same list as filtering once |
| History.WithoutAbsentFile | scripts/api.py:135 | a list with no entry for the name is left exactly as it is |
| History.Before | scripts/image_metadata_saver.py:151 | Python's `<` on the timestamp strings; a string never sorts before itself |
| History.InsertNewest | scripts/image_metadata_saver.py:151 | the insertion step adds exactly one entry |
| History.InsertNewestSplit | scripts/image_metadata_saver.py:151 | the new entry lands after the entries not older than it and before the final run of older ones |
| History.SortNewestFirst | scripts/image_metadata_saver.py:151 | the display order has as many entries as the history; its permutation, order and stability are the three lemmas below |
| History.InsertNewestPermutes | scripts/image_metadata_saver.py:151 | inserting keeps every element and adds the new one (multiset) |
| History.SortNewestFirstPermutes | scripts/image_metadata_saver.py:151 | the display order is a permutation of the history |
| History.InsertNewestOrders | scripts/image_metadata_saver.py:151 | inserting into a newest-first list keeps it newest-first |
| History.SortNewestFirstOrders | scripts/image_metadata_saver.py:151 | the display order is newest first by timestamp string order |
| History.SortNewestFirstStable | scripts/image_metadata_saver.py:151 | entries with equal timestamps keep their relative order (Python's sort is stable, also in reverse) |
| History.SortNewestFirstInPlace | scripts/image_metadata_saver.py:151 | the array, sorted in place, holds exactly the stable newest-first order of its old contents |
| History.InsertInPlace | scripts/image_metadata_saver.py:151 | one insertion step on the array: its sorted prefix grows by one element |
| History.KeepOnDisk | scripts/image_metadata_saver.py:153-156 | only entries whose image exists are shown, each taken from the list |
| History.KeepOnDiskCounts | scripts/image_metadata_saver.py:153-156 | an entry whose image exists is shown as often as it is listed; others never |
| History.KeepOnDiskOrders | scripts/image_metadata_saver.py:153-156 | skipping entries keeps the newest-first order |
| History.SelectionOf | scripts/image_metadata_saver.py:141-156 | the notice exactly when the loaded history is empty; otherwise at most as many cards as entries |
| History.SelectionShowsPresentEntries | scripts/image_metadata_saver.py:141-156 | the notice iff the loaded history is empty; otherwise newest first, exactly the listed entries whose image exists, nothing removed |
| Saver.SaveBase | scripts/image_metadata_saver.py:84-85 | the base uses the processing object's seed, an unstructured object's seed attribute through `str()`, or "unknown" when there is no object or no seed attribute |
| Saver.WrittenRecord | scripts/image_metadata_saver.py:91-93 | the sidecar record names base.png (never empty) and its path in the images directory, and keeps every extracted field |
| Saver.SaveEffect | scripts/image_metadata_saver.py:78-103 | one image under base.png and one sidecar under base.json, written even when the history step then fails; the reported paths; on failure the history is untouched |
| Saver.SaveSucceedsIff | scripts/image_metadata_saver.py:100-124 | a save succeeds exactly when its prompt is text or a sized value of at most 100 items, so a save of a txt2img or img2img object always succeeds |
| Saver.DistinctSeedsDistinctNames | scripts/image_metadata_saver.py:84-85 | two txt2img or img2img saves with one stamp and different seeds get different base names |
| Saver.SaveAppendsOneEntry | scripts/image_metadata_saver.py:100-124 | a successful save adds exactly one history entry, after the earlier ones, with the image name, the record's stamp and the prompt's preview |
| Saver.SaveAppends | scripts/image_metadata_saver.py:100-103 | after a successful save the history file is the append of the record's entry |
| Saver.SaveKeepsWellFormed | scripts/image_metadata_saver.py:96 | a save never writes a sidecar named like the history file |
| Saver.GenerationBaseIsPlain | scripts/image_metadata_saver.py:84-85 | with a strftime-shaped stamp, the base has no dot, slash or backslash when the seed text is a txt2img/img2img seed or "unknown" (no parameter object, or one without a seed) |
| Saver.SaveIndexPointsAtSidecar | scripts/image_metadata_saver.py:119 | for a txt2img, img2img or absent parameter object and a strftime-shaped stamp, the save succeeds and the entry's metadata_file is the sidecar path the save wrote |
| Saver.EntryPointsAtSidecar | scripts/image_metadata_saver.py:119 | the entry for a record named after a dot-free base (slashes and backslashes allowed) points at that base's sidecar in the metadata directory |
| Saver.CollidingSavesOverwrite | scripts/image_metadata_saver.py:84-98 | a second save with the same base replaces the first image and record |
| Saver.CollidingSavesKeepBothEntries | scripts/image_metadata_saver.py:115 | ...while the history gains two entries for that filename |
| Saver.Store.constructor | scripts/image_metadata_saver.py:23-30 | the existing images and sidecars are kept; a missing history file becomes the empty list, and an existing one, even an unreadable one, is kept |
| Saver.Store.UpdateHistory | scripts/image_metadata_saver.py:105-124 | the history becomes the loaded list plus the record's entry, or is left alone when the entry cannot be built |
| Saver.Store.SaveImageWithMetadata | scripts/image_metadata_saver.py:78-103 | the new store and result are those of the save effect; the history file never becomes a sidecar |
| Saver.ShownOnDisk | scripts/image_metadata_saver.py:153-156 | the loop keeps exactly the sorted entries whose image is on disk, in order |
| Saver.Store.HistorySelection | scripts/image_metadata_saver.py:141-156 | copying, sorting in place and filtering gives exactly the specified selection |
| Api.ValidFilename | scripts/api.py:93-94 | an accepted name has no slash or backslash and is not ".." |
| Api.ValidNameStaysInDirectory | scripts/api.py:93-97 | an accepted name joined to a directory is that directory followed by the name, with no separator after it |
| Api.SavedNamesAreValid | scripts/api.py:93-94 | the names a save writes pass the guard and do not denote the directory |
| Api.TraversalRejected | scripts/api.py:93-94 | "../../etc/passwd", "a/b" and "a\\b" are refused with a 400, and a refused delete changes nothing |
| Api.GalleryNamed | scripts/api.py:35-44 | only "txt2img_gallery" and "img2img_gallery" name a gallery |
| Api.GenerationFor | scripts/api.py:55-57 | the generation info at the index, or none when there is no info or the index is past its end |
| Api.ResolveSaveRequest | scripts/api.py:26-57 | a missing or empty id fails first; resolution succeeds iff a known gallery holds an image at the index (default 0); every failure is a 400 or 404, and a 400 iff the id is missing or unknown |
| Api.SaveReply | scripts/api.py:62-73 | success with both paths iff the save succeeded, otherwise the fault |
| Api.SaveImage | scripts/api.py:23-73 | an unresolved request changes nothing and fails; otherwise the store and reply are those of the save |
| Api.GetHistory | scripts/api.py:75-87 | the stored list verbatim, the empty list without a file, a failure iff the file cannot be parsed |
| Api.MetadataFiles | scripts/api.py:97-98 | the metadata directory holds the sidecars and the history file when it exists |
| Api.GetMetadata | scripts/api.py:89-108 | an invalid name raises 400; a name not in the directory raises 404; a sidecar comes back as stored |
| Api.HistoryThroughMetadata | scripts/api.py:78-108 | reading history.json as metadata agrees with the history endpoint, except that a missing file is a 404 |
| Api.SidecarOf | scripts/api.py:119 | the derived sidecar name ends in ".json", and a name without an extension just gains ".json" |
| Api.RemoveFiles | scripts/api.py:117-126 | the image goes; the derived sidecar goes, or the history file goes when that is the derived name |
| Api.RewriteHistory | scripts/api.py:128-140 | the files are untouched; success iff the history is not unparsable; the surviving entries were listed and name other files |
| Api.DeleteEffect | scripts/api.py:110-142 | an invalid name changes nothing and fails; so does the directory; otherwise success iff the history file is not unparsable or was the derived sidecar (a missing history file succeeds) |
| Api.DeleteRemovesName | scripts/api.py:118-135 | the image, its derived sidecar and every history entry for the name are gone; all other images and sidecars stay |
| Api.DeleteKeepsOtherEntries | scripts/api.py:135 | the other history entries are kept in their relative order |
| Api.DeleteIdempotent | scripts/api.py:110-142 | deleting twice gives the store and the reply of deleting once |
| Api.DeleteUnknownIsNoOp | scripts/api.py:122-140 | deleting a valid name the store does not know, whose derived sidecar is not `history.json`, succeeds and changes nothing when the history file is missing or parsable (an unparsable one makes the delete fail) |
| Api.DeleteHistoryImageErasesHistory | scripts/api.py:119-130 | deleting "history.png" removes the history file whatever it held, and succeeds |
| Api.DeleteKeepsWellFormed | scripts/api.py:125-126 | a delete never makes the history file a sidecar |
| Api.DeleteImage | scripts/api.py:110-142 | the new store and reply are those of the delete effect |
| Api.RemoveFilesOf | scripts/api.py:117-126 | removes each file only if it exists, giving the files step of the effect |
| Api.RewriteHistoryFile | scripts/api.py:128-140 | loads, filters and rewrites the history, giving the history step of the effect |
| Api.SaveThenGetMetadata | scripts/api.py:97-104 | after any save whose sidecar name passes the filename guard, even one whose history update failed, the sidecar read back is the record written, field for field |
| Api.PlainSaveSidecarPassesGuard | scripts/api.py:93-94 | the sidecar name passes the guard for a strftime-shaped stamp and a txt2img, img2img, absent or seedless parameter object |
| Api.SaveThenDelete | scripts/api.py:118-135 | deleting the image of a txt2img, img2img or parameter-less save removes its image, sidecar and history entry, and the sidecar is then a 404 |
| Api.SavedNamesPair | scripts/api.py:119 | delete derives from a saved image's name the sidecar the save wrote |
| Api.DeleteAfterWrite | scripts/api.py:118-140 | deleting right after a write of image, sidecar and entry undoes all three |

## Left out

- Image encoding, JSON serialisation and base64 previews (`image.save`, `json.dump`/`json.load`, `image_to_base64`): images and records are opaque values, and a sidecar always parses.
- Sidecars that cannot be parsed, and history entries without a "filename" key (a `KeyError` in delete): the model's sidecars and entries are always well-formed.
- A history file that parses to something other than a list: the model's file is missing, unreadable or a list.
- The clock: the ISO timestamp of the record and the strftime stamp of the name are two independent string inputs. `datetime.fromisoformat` in the panel is not modelled.
- The HTML of the history panel, its card details read from each sidecar, the Gradio UI and the buttons: only the sort and the filter of the panel are modelled.
- `javascript/script.js`, `install.py` and `__init__.py`: UI wiring and bootstrap, not part of this model.
- Concurrent requests racing on the history file.
- The `gr` annotation in `scripts/api.py:22`, which names a module that file never imports.
- The `metadata` argument of `save_image_with_metadata`: its callers pass none, so the record is always extracted.
- `cfg_scale` is kept as an opaque `real`. The reflective `__dict__` of an unknown parameter object is a map of values, empty when the object has none.
- Error texts (`str(e)`) are structured `Fault` values.
- Api.ResolveSaveRequest: `image_index` is a natural number, so Python's negative indexing and non-integer indices are not modelled.
- Api.ResolveSaveRequest: a falsy gallery entry is `EmptySlot`, and a present image is always truthy.
- Api.ResolveSaveRequest: the request is always a JSON object and every gallery entry a mapping or empty. A body that is not an object (`request.json()` or `data.get` raising at `scripts/api.py:26-27`) and an entry that is not a mapping (`image_data.get` raising at `scripts/api.py:50`) both end in `success: false` through `scripts/api.py:67-73`, and neither is modelled.
- File names are compared case-sensitively, under POSIX path rules, on a filesystem with one directory level per folder. On a case-insensitive volume (Windows, default macOS), `os.path.exists`/`os.remove` at `scripts/api.py:122-126` and `scripts/image_metadata_saver.py:153-156` match names that differ in case. For example, `delete_image("IMAGE_X.PNG")` removes `image_x.png`, while the history filter at `scripts/api.py:135` still keeps its entry. The model removes nothing in that case, so `Api.DeleteRemovesName`'s "every other image stays" assumes a case-sensitive filesystem.
- Naming.OnDisk: a history entry whose filename holds a slash is looked up as a plain name. With `os.path.join`, an absolute name would replace the images directory and a relative one would name a sub-directory.
- Records.ExtractMetadata: an arbitrary object kept as `Value.Other` is taken to be truthy. A falsy parameter object other than None is modelled as `Absent`.
- Saver.SaveEffect: a seed text with a slash names a file in a sub-directory that does not exist, so the real write fails. The model stores the file under that name.
- Api.GetMetadata: the 404-iff-absent clause is stated for stores whose sidecars do not include the history file's name. Every store the saver builds satisfies this.
- Filesystem failures other than the ones named above (disk full, permissions): not modelled.

=== FILE: api.dfy ===
/** The four HTTP endpoints of the plugin: save a gallery image, read the
    history, read one file of the metadata directory, delete an image. */
module Api {
  import opened Common
  import opened Naming
  import opened Records
  import opened History
  import opened Saver

  // ---------------------------------------------------------------------------
  // The filename guard of the metadata and delete endpoints

  predicate ContainsDoubleDot(s: string)
    ensures |s| >= 2 && s[0] == '.' && s[1] == '.' ==> ContainsDoubleDot(s)
  {
    exists i :: 0 <= i < |s| - 1 && s[i] == '.' && s[i + 1] == '.'
  }

  /** A name is refused when it contains "..", a slash or a backslash. */
  predicate ValidFilename(name: string)
    ensures ValidFilename(name) ==> forall i :: 0 <= i < |name| ==> name[i] != '/' && name[i] != '\\'
    ensures ValidFilename(name) ==> name != ".."
  {
    !ContainsDoubleDot(name) && '/' !in name && '\\' !in name
  }

  /** An accepted name cannot leave the directory it is joined to: the path is
      the directory followed by the name, and the name holds no separator. */
  lemma ValidNameStaysInDirectory(dir: string, name: string)
    requires ValidFilename(name)
    ensures Join(dir, name) == DirPrefix(dir) + name
    ensures forall k :: |DirPrefix(dir)| <= k < |Join(dir, name)| ==> Join(dir, name)[k] != '/'
  {
    forall i | 0 <= i < |name| ensures name[i] != '/' {
      assert name[i] in name;
    }
    JoinRelative(dir, name);
  }

  lemma JoinRelative(dir: string, name: string)
    requires forall i :: 0 <= i < |name| ==> name[i] != '/'
    ensures Join(dir, name) == DirPrefix(dir) + name
    ensures forall k :: |DirPrefix(dir)| <= k < |Join(dir, name)| ==> Join(dir, name)[k] != '/'
  {
    var prefix := DirPrefix(dir);
    assert name == [] || name[0] != '/';
    assert Join(dir, name) == prefix + name;
    forall k | |prefix| <= k < |prefix + name| ensures (prefix + name)[k] != '/' {
      assert (prefix + name)[k] == name[k - |prefix|];
    }
  }

  /** The names a save writes (a plain base plus ".png" or ".json") pass the
      guard and do not denote the directory. */
  lemma SavedNamesAreValid(base: string)
    requires base != []
    requires forall i :: 0 <= i < |base| ==> base[i] !in {'.', '/', '\\'}
    ensures ValidFilename(ImageFileName(base)) && !DenotesDirectory(ImageFileName(base))
    ensures ValidFilename(SidecarFileName(base)) && !DenotesDirectory(SidecarFileName(base))
  {
    PlainWithExtension(base, ImageExt);
    PlainWithExtension(base, SidecarExt);
  }

  lemma PlainWithExtension(base: string, ext: string)
    requires base != [] && |ext| >= 2 && ext[0] == '.'
    requires forall i :: 1 <= i < |ext| ==> ext[i] !in {'.', '/', '\\'}
    requires forall i :: 0 <= i < |base| ==> base[i] !in {'.', '/', '\\'}
    ensures ValidFilename(base + ext) && !DenotesDirectory(base + ext)
  {
    var s := base + ext;
    forall i | 0 <= i < |s| ensures s[i] in {'/', '\\'} ==> false {
      if i < |base| {
        assert s[i] == base[i];
      } else {
        assert s[i] == ext[i - |base|];
      }
    }
    forall i | 0 <= i < |s| - 1 ensures !(s[i] == '.' && s[i + 1] == '.') {
      if i < |base| {
        assert s[i] == base[i];
      } else {
        assert s[i + 1] == ext[i + 1 - |base|];
      }
    }
    assert |s| > 2;
  }

  /** Traversal attempts are refused with a 400 before the store is looked at. */
  lemma TraversalRejected(st: Snapshot)
    ensures GetMetadata(st, "../../etc/passwd") == HttpRaised(InvalidFilename)
    ensures GetMetadata(st, "a/b") == HttpRaised(InvalidFilename)
    ensures GetMetadata(st, "a\\b") == HttpRaised(InvalidFilename)
    ensures DeleteEffect(st, "../../etc/passwd") == DeleteOutcome(st, DeleteFailed(InvalidFilename))
  {
    assert "../../etc/passwd"[2] == '/';
    assert "a/b"[1] == '/';
    assert "a\\b"[1] == '\\';
  }

  // ---------------------------------------------------------------------------
  // POST /save

  /** The JSON body of a save request: `gallery_id` (absent when missing or
      falsy, otherwise the text `str()` gives for it, so a truthy non-text id
      is an unknown gallery) and `image_index` (0 when missing). */
  datatype SaveRequest = SaveRequest(galleryId: Option<string>, imageIndex: Option<nat>)

  /** One entry of a host gallery: a falsy value, or a mapping whose "image"
      may be missing. */
  datatype Slot = EmptySlot | Item(image: Option<Image>)

  /** The host state the save endpoint reads. */
  datatype Host = Host(
    txt2imgGallery: seq<Slot>,
    img2imgGallery: seq<Slot>,
    generationInfo: Option<seq<GenerationInput>>)  // None when the host has none

  const Txt2ImgGalleryId: string := "txt2img_gallery"
  const Img2ImgGalleryId: string := "img2img_gallery"

  /** The gallery a request names, if it names one of the two. */
  function GalleryNamed(host: Host, id: string): (g: Option<seq<Slot>>)
    ensures g.Some? <==> id == Txt2ImgGalleryId || id == Img2ImgGalleryId
  {
    if id == Txt2ImgGalleryId then Some(host.txt2imgGallery)
    else if id == Img2ImgGalleryId then Some(host.img2imgGallery)
    else None
  }

  /** The parameter object for the image at `index`, looked up in the host's
      generation info (with the same index as the gallery). */
  function GenerationFor(host: Host, index: nat): (p: GenerationInput)
    ensures host.generationInfo.None? || index >= |host.generationInfo.value| ==> p.Absent?
    ensures host.generationInfo.Some? && index < |host.generationInfo.value| ==> p == host.generationInfo.value[index]
  {
    match host.generationInfo
    case None => Absent
    case Some(info) => if index < |info| then info[index] else Absent
  }

  /** What a save request resolves to before anything is written. */
  datatype Resolved = Resolved(image: Image, generation: GenerationInput)

  /** The checks the save endpoint makes, in its order. */
  function ResolveSaveRequest(req: SaveRequest, host: Host): (r: Result<Resolved>)
    ensures req.galleryId.None? || req.galleryId == Some("") ==> r == Err(MissingGalleryId)
    ensures r.Ok? <==>
      && req.galleryId.Some?
      && GalleryNamed(host, req.galleryId.value).Some?
      && var g := GalleryNamed(host, req.galleryId.value).value;
         var i := req.imageIndex.GetOr(0);
         i < |g| && g[i].Item? && g[i].image.Some?
    ensures r.Ok? ==>
      var g := GalleryNamed(host, req.galleryId.value).value;
      var i := req.imageIndex.GetOr(0);
      r.value == Resolved(g[i].image.value, GenerationFor(host, i))
    ensures r.Err? ==> StatusCode(r.fault).Some?
    ensures r.Err? ==> (StatusCode(r.fault) == Some(400) <==>
      req.galleryId.None? || GalleryNamed(host, req.galleryId.value).None?)
  {
    var index := req.imageIndex.GetOr(0);
    if req.galleryId.None? || req.galleryId.value == "" then Err(MissingGalleryId)
    else
      var id := req.galleryId.value;
      match GalleryNamed(host, id)
      case None => Err(UnknownGallery(id))
      case Some(gallery) =>
        if gallery == [] then Err(GalleryNotFound(id))
        else if index >= |gallery| || gallery[index].EmptySlot? then Err(ImageIndexNotFound(index))
        else if gallery[index].image.None? then Err(ImageNotInData)
        else Ok(Resolved(gallery[index].image.value, GenerationFor(host, index)))
  }

  /** The save endpoint's JSON reply. Every failure, HTTP error or not, is
      caught and reported with "success": false. */
  datatype SaveResponse = SaveSucceeded(imagePath: string, metadataPath: string) | SaveFailed(error: Fault)

  function SaveReply(r: Result<Saved>): (resp: SaveResponse)
    ensures resp.SaveSucceeded? <==> r.Ok?
    ensures r.Ok? ==> resp.imagePath == r.value.imagePath && resp.metadataPath == r.value.jsonPath
    ensures r.Err? ==> resp.error == r.fault
  {
    match r
    case Ok(saved) => SaveSucceeded(saved.imagePath, saved.jsonPath)
    case Err(f) => SaveFailed(f)
  }

  /** POST /api/image_metadata_saver/save. A request that does not resolve
      leaves the store untouched; one that does is a save of the resolved
      image with its parameter object. */
  method SaveImage(store: Store, req: SaveRequest, host: Host, now: string, stamp: string,
                   model: Option<LoadedModel>) returns (resp: SaveResponse)
    requires store.Valid()
    modifies store
    ensures store.Valid()
    ensures ResolveSaveRequest(req, host).Err? ==>
      resp == SaveFailed(ResolveSaveRequest(req, host).fault) && store.Contents() == old(store.Contents())
    ensures ResolveSaveRequest(req, host).Ok? ==>
      var res := ResolveSaveRequest(req, host).value;
      var o := SaveEffect(old(store.Contents()), store.config, res.image, res.generation, now, stamp, model);
      store.Contents() == o.after && resp == SaveReply(o.result)
  {
    var resolved := ResolveSaveRequest(req, host);
    if resolved.Err? {
      return SaveFailed(resolved.fault);
    }
    var r := store.SaveImageWithMetadata(resolved.value.image, resolved.value.generation, now, stamp, model);
    resp := SaveReply(r);
  }

  // ---------------------------------------------------------------------------
  // GET /history

  datatype HistoryResponse = HistoryData(entries: seq<Entry>) | HistoryFailed(error: Fault)

  /** GET /api/image_metadata_saver/history: the stored list, the empty list
      when there is no history file, a failure when it cannot be parsed. */
  function GetHistory(st: Snapshot): (r: HistoryResponse)
    ensures r.HistoryFailed? <==> st.history.Unreadable?
    ensures r.HistoryFailed? ==> r.error == HistoryUnreadable
    ensures r.HistoryData? ==> r.entries == LoadHistory(st.history)
  {
    match st.history
    case Missing => HistoryData([])
    case Unreadable => HistoryFailed(HistoryUnreadable)
    case Stored(es) => HistoryData(es)
  }

  // ---------------------------------------------------------------------------
  // GET /metadata/{filename}

  /** A file of the metadata directory: a sidecar record or the history list. */
  datatype Document = RecordDocument(record: Record) | HistoryDocument(entries: seq<Entry>)

  /** HTTP errors are raised to the framework; other failures are reported in
      the body. */
  datatype MetadataResponse =
    | MetadataData(doc: Document)
    | MetadataFailed(error: Fault)
    | HttpRaised(error: Fault)

  /** The names present in the metadata directory. */
  function MetadataFiles(st: Snapshot): (names: set<string>)
    ensures forall n :: n in names <==> n in st.sidecars || (n == HistoryName && !st.history.Missing?)
  {
    st.sidecars.Keys + (if st.history.Missing? then {} else {HistoryName})
  }

  /** GET /api/image_metadata_saver/metadata/{filename}. */
  function GetMetadata(st: Snapshot, name: string): (r: MetadataResponse)
    ensures r == HttpRaised(InvalidFilename) <==> !ValidFilename(name)
    ensures WellFormed(st) ==>
      (r == HttpRaised(MetadataNotFound(name)) <==> ValidFilename(name) && !OnDisk(MetadataFiles(st), name))
    ensures r.HttpRaised? ==> StatusCode(r.error).Some?
    ensures WellFormed(st) && ValidFilename(name) && name in st.sidecars && !DenotesDirectory(name) ==>
      r == MetadataData(RecordDocument(st.sidecars[name]))
    ensures r.MetadataData? ==> OnDisk(MetadataFiles(st), name)
  {
    if !ValidFilename(name) then HttpRaised(InvalidFilename)
    else if DenotesDirectory(name) then MetadataFailed(IsADirectory(name))
    else if name == HistoryName then
      match st.history
      case Missing => HttpRaised(MetadataNotFound(name))
      case Unreadable => MetadataFailed(HistoryUnreadable)
      case Stored(es) => MetadataData(HistoryDocument(es))
    else if name in st.sidecars then MetadataData(RecordDocument(st.sidecars[name]))
    else HttpRaised(MetadataNotFound(name))
  }

  /** Reading "history.json" through the metadata endpoint gives what the
      history endpoint gives, except that a missing file is a 404 there and
      the empty list here. */
  lemma HistoryThroughMetadata(st: Snapshot)
    ensures st.history.Missing? ==> GetMetadata(st, HistoryName) == HttpRaised(MetadataNotFound(HistoryName))
    ensures GetHistory(st).HistoryFailed? ==> GetMetadata(st, HistoryName) == MetadataFailed(GetHistory(st).error)
    ensures st.history.Stored? ==> GetMetadata(st, HistoryName) == MetadataData(HistoryDocument(GetHistory(st).entries))
  {
    PlainWithExtension("history", SidecarExt);
    assert "history" + SidecarExt == HistoryName;
  }

  // ---------------------------------------------------------------------------
  // DELETE /delete/{filename}

  datatype DeleteResponse = DeleteSucceeded | DeleteFailed(error: Fault)

  datatype DeleteOutcome = DeleteOutcome(after: Snapshot, response: DeleteResponse)

  /** The sidecar delete removes for an image name: the name with its last
      extension replaced by ".json". */
  function SidecarOf(name: string): (r: string)
    ensures SplitExt(name).ext == [] ==> r == name + SidecarExt
    ensures |r| >= |SidecarExt| && r[|r| - |SidecarExt|..] == SidecarExt
  {
    SplitExt(name).root + SidecarExt
  }

  /** The first half of a delete: the image goes, and so does the file the
      derived sidecar name denotes, which is the history file itself when the
      name's stem is "history". */
  function RemoveFiles(st: Snapshot, name: string): (files: Snapshot)
    ensures files.images == st.images - {name}
    ensures SidecarOf(name) == HistoryName ==> files.sidecars == st.sidecars && files.history == Missing
    ensures SidecarOf(name) != HistoryName ==> files.sidecars == st.sidecars - {SidecarOf(name)} && files.history == st.history
  {
    var json := SidecarOf(name);
    if json == HistoryName then Snapshot(st.images - {name}, st.sidecars, Missing)
    else Snapshot(st.images - {name}, st.sidecars - {json}, st.history)
  }

  /** The second half: a history file, if there is one, is parsed, filtered
      and written back. */
  function RewriteHistory(files: Snapshot, name: string): (o: DeleteOutcome)
    ensures o.after.images == files.images && o.after.sidecars == files.sidecars
    ensures o.response == DeleteSucceeded <==> !files.history.Unreadable?
    ensures o.response.DeleteFailed? ==> o.after == files && o.response.error == HistoryUnreadable
    ensures forall e :: e in LoadHistory(o.after.history) ==> e in LoadHistory(files.history) && e.filename != name
  {
    match files.history
    case Missing => DeleteOutcome(files, DeleteSucceeded)
    case Unreadable => DeleteOutcome(files, DeleteFailed(HistoryUnreadable))
    case Stored(es) => DeleteOutcome(files.(history := Stored(WithoutFile(es, name))), DeleteSucceeded)
  }

  /** What DELETE /api/image_metadata_saver/delete/{filename} does: remove the
      image, remove the sidecar derived from its name, drop the name's entries
      from the history. The files go first, so a history that cannot be parsed
      fails the request after they are gone. */
  function DeleteEffect(st: Snapshot, name: string): (o: DeleteOutcome)
    ensures !ValidFilename(name) ==> o == DeleteOutcome(st, DeleteFailed(InvalidFilename))
    ensures ValidFilename(name) && DenotesDirectory(name) ==> o == DeleteOutcome(st, DeleteFailed(IsADirectory(name)))
    ensures ValidFilename(name) && !DenotesDirectory(name) ==>
      (o.response == DeleteSucceeded <==> !(st.history.Unreadable? && SidecarOf(name) != HistoryName))
  {
    if !ValidFilename(name) then DeleteOutcome(st, DeleteFailed(InvalidFilename))
    else if DenotesDirectory(name) then DeleteOutcome(st, DeleteFailed(IsADirectory(name)))
    else RewriteHistory(RemoveFiles(st, name), name)
  }

  /** The image, the sidecar derived from its name and every history entry for
      the name are gone; every other image and sidecar is left as it was. */
  lemma DeleteRemovesName(st: Snapshot, name: string)
    requires WellFormed(st)
    requires ValidFilename(name) && !DenotesDirectory(name)
    ensures var after := DeleteEffect(st, name).after;
      && after.images == st.images - {name}
      && after.sidecars == st.sidecars - {SidecarOf(name)}
      && (forall e :: e in LoadHistory(after.history) ==> e.filename != name)
  {
    if SidecarOf(name) == HistoryName {
      assert st.sidecars - {SidecarOf(name)} == st.sidecars;
    }
  }

  /** Unless the history itself is the derived sidecar, the history keeps every
      other entry, in order; a history that cannot be parsed stays as it is. */
  lemma DeleteKeepsOtherEntries(st: Snapshot, name: string, front: seq<Entry>, back: seq<Entry>)
    requires ValidFilename(name) && !DenotesDirectory(name)
    requires SidecarOf(name) != HistoryName
    requires st.history == Stored(front + back)
    ensures DeleteEffect(st, name).after.history == Stored(WithoutFile(front, name) + WithoutFile(back, name))
  {
    WithoutFileConcat(front, back, name);
  }

  /** Deleting twice leaves the store and the reply of deleting once. */
  lemma DeleteIdempotent(st: Snapshot, name: string)
    ensures var once := DeleteEffect(st, name);
      DeleteEffect(once.after, name) == once
  {
    if ValidFilename(name) && !DenotesDirectory(name) {
      var files := RemoveFiles(st, name);
      var again := RemoveFiles(files, name);
      RemoveTwice(st.images, name);
      if SidecarOf(name) != HistoryName {
        RemoveTwice(st.sidecars, SidecarOf(name));
      }
      assert again == files;
      if files.history.Stored? {
        WithoutFileIdempotent(files.history.entries, name);
      }
    }
  }

  /** Removing a file that is already gone changes nothing. */
  lemma RemoveTwice<V>(m: map<string, V>, k: string)
    ensures m - {k} - {k} == m - {k}
  {
  }

  /** Deleting a name the store does not know succeeds and changes nothing. */
  lemma DeleteUnknownIsNoOp(st: Snapshot, name: string)
    requires ValidFilename(name) && !DenotesDirectory(name)
    requires name !in st.images && SidecarOf(name) !in st.sidecars && SidecarOf(name) != HistoryName
    requires !st.history.Unreadable?
    requires forall i :: 0 <= i < |LoadHistory(st.history)| ==> LoadHistory(st.history)[i].filename != name
    ensures DeleteEffect(st, name) == DeleteOutcome(st, DeleteSucceeded)
  {
    RemoveUnknownFiles(st, name);
    if st.history.Stored? {
      assert LoadHistory(st.history) == st.history.entries;
      WithoutAbsentFile(st.history.entries, name);
    }
  }

  /** Removing files that are not there leaves the store as it was. */
  lemma RemoveUnknownFiles(st: Snapshot, name: string)
    requires name !in st.images && SidecarOf(name) !in st.sidecars && SidecarOf(name) != HistoryName
    ensures RemoveFiles(st, name) == st
  {
    assert st.images - {name} == st.images;
    assert st.sidecars - {SidecarOf(name)} == st.sidecars;
  }

  /** An image named like the history file ("history.png", whose derived
      sidecar is "history.json") takes the whole history with it when it is
      deleted, whatever the history held. */
  lemma DeleteHistoryImageErasesHistory(st: Snapshot, base: string)
    requires SidecarFileName(base) == HistoryName
    ensures DeleteEffect(st, ImageFileName(base)).after.history == Missing
    ensures DeleteEffect(st, ImageFileName(base)).response == DeleteSucceeded
  {
    assert base == HistoryName[..|HistoryName| - |SidecarExt|];
    forall i | 0 <= i < |base| ensures base[i] !in {'.', '/', '\\'} {
      assert base[i] == HistoryName[i];
    }
    PlainWithExtension(base, ImageExt);
    SavedNameStem(base);
    assert SidecarOf(ImageFileName(base)) == HistoryName;
  }

  /** Deleting never turns the history file into a sidecar. */
  lemma DeleteKeepsWellFormed(st: Snapshot, name: string)
    requires WellFormed(st)
    ensures WellFormed(DeleteEffect(st, name).after)
  {
  }

  /** The delete endpoint, step by step: each file is removed only if it
      exists, then the history file, if there is one, is filtered and
      rewritten. */
  method DeleteImage(store: Store, name: string) returns (resp: DeleteResponse)
    requires store.Valid()
    modifies store
    ensures store.Valid()
    ensures store.Contents() == DeleteEffect(old(store.Contents()), name).after
    ensures resp == DeleteEffect(old(store.Contents()), name).response
  {
    ghost var before := store.Contents();
    if !ValidFilename(name) {
      return DeleteFailed(InvalidFilename);
    }
    if DenotesDirectory(name) {
      // os.path.exists sees the directory, and removing it fails
      return DeleteFailed(IsADirectory(name));
    }
    RemoveFilesOf(store, name);
    resp := RewriteHistoryFile(store, name);
    DeleteKeepsWellFormed(before, name);
  }

  /** Remove the image and the derived sidecar, each only if it exists. */
  method RemoveFilesOf(store: Store, name: string)
    modifies store
    ensures store.Contents() == RemoveFiles(old(store.Contents()), name)
  {
    if name in store.images {
      store.images := store.images - {name};
    }
    var json := SidecarOf(name);
    if json == HistoryName {
      if !store.history.Missing? {
        store.history := Missing;
      }
    } else if json in store.sidecars {
      store.sidecars := store.sidecars - {json};
    }
  }

  /** Load, filter and rewrite the history file, if there is one. */
  method RewriteHistoryFile(store: Store, name: string) returns (resp: DeleteResponse)
    modifies store`history
    ensures store.Contents() == RewriteHistory(old(store.Contents()), name).after
    ensures resp == RewriteHistory(old(store.Contents()), name).response
  {
    match store.history
    case Missing =>
      resp := DeleteSucceeded;
    case Unreadable =>
      resp := DeleteFailed(HistoryUnreadable);
    case Stored(es) =>
      store.history := Stored(WithoutFile(es, name));
      resp := DeleteSucceeded;
  }

  // ---------------------------------------------------------------------------
  // Round trips through the endpoints

  /** After any save whose sidecar name passes the filename guard, the
      metadata endpoint returns the record just written under that name. The
      sidecar is written before the history, so this holds even when the
      preview fails. */
  lemma SaveThenGetMetadata(st: Snapshot, cfg: StoreConfig, image: Image, p: GenerationInput,
                            now: string, stamp: string, model: Option<LoadedModel>)
    requires WellFormed(st)
    requires ValidFilename(SidecarFileName(SaveBase(p, stamp, model)))
    ensures var after := SaveEffect(st, cfg, image, p, now, stamp, model).after;
      GetMetadata(after, SidecarFileName(SaveBase(p, stamp, model)))
        == MetadataData(RecordDocument(WrittenRecord(cfg, image, p, now, stamp, model)))
  {
    var json := SidecarFileName(SaveBase(p, stamp, model));
    assert json[0] == 'i';
    SaveKeepsWellFormed(st, cfg, image, p, now, stamp, model);
  }

  /** The sidecar name of a save with a well-formed stamp passes the filename
      guard whenever the seed text is plain: a recognised processing object, no
      object at all, or an object without a seed. */
  lemma PlainSaveSidecarPassesGuard(p: GenerationInput, stamp: string, model: Option<LoadedModel>)
    requires p.Txt2Img? || p.Img2Img? || p.Absent? || (p.Unstructured? && "seed" !in p.attributes)
    requires StampShaped(stamp)
    ensures ValidFilename(SidecarFileName(SaveBase(p, stamp, model)))
  {
    GenerationBaseIsPlain(p, stamp, model);
    SavedNamesAreValid(SaveBase(p, stamp, model));
  }

  /** Deleting the image a save reported removes the image, its sidecar and its
      history entry, after which the sidecar is a 404. */
  lemma SaveThenDelete(st: Snapshot, cfg: StoreConfig, image: Image, p: GenerationInput,
                       now: string, stamp: string, model: Option<LoadedModel>)
    requires WellFormed(st)
    requires p.Txt2Img? || p.Img2Img? || p.Absent?
    requires StampShaped(stamp)
    ensures var base := SaveBase(p, stamp, model);
      var d := DeleteEffect(SaveEffect(st, cfg, image, p, now, stamp, model).after, ImageFileName(base));
      && d.response == DeleteSucceeded
      && d.after.images == st.images - {ImageFileName(base)}
      && d.after.sidecars == st.sidecars - {SidecarFileName(base)}
      && LoadHistory(d.after.history) == WithoutFile(LoadHistory(st.history), ImageFileName(base))
      && GetMetadata(d.after, SidecarFileName(base)) == HttpRaised(MetadataNotFound(SidecarFileName(base)))
  {
    var base := SaveBase(p, stamp, model);
    var rec := WrittenRecord(cfg, image, p, now, stamp, model);
    var e := EntryFor(rec, cfg.metadataDir).value;
    GenerationBaseIsPlain(p, stamp, model);
    SaveSucceedsIff(st, cfg, image, p, now, stamp, model);
    SavedNamesPair(base);
    SaveWrites(st, cfg, image, p, now, stamp, model);
    DeleteAfterWrite(st, ImageFileName(base), SidecarFileName(base), image, rec, e);
  }

  /** The store a successful save leaves: one image, one sidecar and one
      history entry more. */
  lemma SaveWrites(st: Snapshot, cfg: StoreConfig, image: Image, p: GenerationInput,
                   now: string, stamp: string, model: Option<LoadedModel>)
    requires SaveEffect(st, cfg, image, p, now, stamp, model).result.Ok?
    ensures var base := SaveBase(p, stamp, model);
      var rec := WrittenRecord(cfg, image, p, now, stamp, model);
      var e := EntryFor(rec, cfg.metadataDir);
      && e.Ok? && e.value.filename == ImageFileName(base)
      && SaveEffect(st, cfg, image, p, now, stamp, model).after
         == Snapshot(st.images[ImageFileName(base) := image], st.sidecars[SidecarFileName(base) := rec],
                     Stored(LoadHistory(st.history) + [e.value]))
  {
    SaveAppends(st, cfg, image, p, now, stamp, model);
  }

  /** For a plain base of the saver's shape, the image name and its sidecar
      name pass the guard, and delete derives the very sidecar the save wrote. */
  lemma SavedNamesPair(base: string)
    requires |base| >= 6 && base[..6] == "image_"
    requires forall i :: 0 <= i < |base| ==> base[i] !in {'.', '/', '\\'}
    ensures ValidFilename(ImageFileName(base)) && !DenotesDirectory(ImageFileName(base))
    ensures ValidFilename(SidecarFileName(base)) && !DenotesDirectory(SidecarFileName(base))
    ensures SidecarOf(ImageFileName(base)) == SidecarFileName(base) != HistoryName
  {
    SavedNamesAreValid(base);
    SavedNameStem(base);
    assert SidecarFileName(base)[0] == base[..6][0];
  }

  /** Deleting a name right after its image, its sidecar and one history entry
      were written undoes all three. */
  lemma DeleteAfterWrite(st: Snapshot, name: string, json: string, image: Image, rec: Record, e: Entry)
    requires WellFormed(st)
    requires ValidFilename(name) && !DenotesDirectory(name)
    requires SidecarOf(name) == json && json != HistoryName
    requires ValidFilename(json) && !DenotesDirectory(json)
    requires e.filename == name
    ensures var d := DeleteEffect(Snapshot(st.images[name := image], st.sidecars[json := rec],
                                           Stored(LoadHistory(st.history) + [e])), name);
      && d.response == DeleteSucceeded
      && d.after.images == st.images - {name}
      && d.after.sidecars == st.sidecars - {json}
      && LoadHistory(d.after.history) == WithoutFile(LoadHistory(st.history), name)
      && GetMetadata(d.after, json) == HttpRaised(MetadataNotFound(json))
  {
    var written := Snapshot(st.images[name := image], st.sidecars[json := rec], Stored(LoadHistory(st.history) + [e]));
    var d := DeleteEffect(written, name);
    WithoutFileConcat(LoadHistory(st.history), [e], name);
    assert WithoutFile([e], name) == [];
    assert d.after == Snapshot(written.images - {name}, written.sidecars - {json},
                               Stored(WithoutFile(LoadHistory(st.history) + [e], name)));
    OverwriteThenRemove(st.images, name, image);
    OverwriteThenRemove(st.sidecars, json, rec);
    assert WellFormed(d.after);
  }

  /** Writing a file and then removing it leaves the directory without it. */
  lemma OverwriteThenRemove<V>(m: map<string, V>, k: string, v: V)
    ensures m[k := v] - {k} == m - {k}
  {
  }
}

=== FILE: common.dfy ===
/** Values shared by the record builder, the history index and the HTTP layer. */
module Common {

  datatype Option<+T> = None | Some(value: T)
  {
    /** The wrapped value, or `default` when there is none. */
    function GetOr(default: T): T
    {
      match this
      case Some(v) => v
      case None => default
    }
  }

  /** Every way an operation of the plugin can fail. The HTTP layer raises the
      first group as HTTP errors; the rest are exceptions from the filesystem,
      the JSON decoder or the Python runtime. */
  datatype Fault =
    | MissingGalleryId                // 400: the request has no gallery_id
    | UnknownGallery(id: string)      // 400: neither of the two host galleries
    | GalleryNotFound(id: string)     // 404: the gallery is empty or absent
    | ImageIndexNotFound(index: nat)  // 404: no usable entry at the index
    | ImageNotInData                  // 404: the entry holds no image
    | InvalidFilename                 // 400: path traversal attempt
    | MetadataNotFound(name: string)  // 404: no such file in the metadata directory
    | IsADirectory(name: string)      // the name denotes the directory itself
    | HistoryUnreadable               // the history file is not valid JSON
    | PromptHasNoLength               // `len(prompt)` fails: the prompt has no length (TypeError)
    | PromptNotCuttable               // `prompt[:100] + "..."` fails on a long non-text prompt (TypeError)

  /** The status code of the faults raised as HTTP errors; None for the others. */
  function StatusCode(f: Fault): (code: Option<nat>)
    ensures code.Some? ==> code.value in {400, 404}
    ensures code.Some? <==>
      !(f.IsADirectory? || f.HistoryUnreadable? || f.PromptHasNoLength? || f.PromptNotCuttable?)
    ensures code == Some(400) <==> f.MissingGalleryId? || f.UnknownGallery? || f.InvalidFilename?
    ensures code == Some(404) <==>
      f.GalleryNotFound? || f.ImageIndexNotFound? || f.ImageNotInData? || f.MetadataNotFound?
  {
    match f
    case MissingGalleryId => Some(400)
    case UnknownGallery(_) => Some(400)
    case InvalidFilename => Some(400)
    case GalleryNotFound(_) => Some(404)
    case ImageIndexNotFound(_) => Some(404)
    case ImageNotInData => Some(404)
    case MetadataNotFound(_) => Some(404)
    case IsADirectory(_) => None
    case HistoryUnreadable => None
    case PromptHasNoLength => None
    case PromptNotCuttable => None
  }

  datatype Result<+T> = Ok(value: T) | Err(fault: Fault)

  /** A value found in an image's embedded info mapping or among the attributes
      of an unrecognised parameter object. `Sized` is a list, tuple, dict or
      other object that has a length (`len()` gives `size`); `Other` is any
      other Python object. Both are kept as the text `str()` gives for them. */
  datatype Value = Text(s: string) | Number(n: int) | Sized(repr: string, size: nat) | Other(repr: string)

  /** Python truthiness: a sized object is falsy when empty; objects kept as
      `Other` are taken to be truthy. */
  predicate Truthy(v: Value)
  {
    match v
    case Text(s) => s != ""
    case Number(n) => n != 0
    case Sized(_, size) => size != 0
    case Other(_) => true
  }

  /** Python's `str()` (what an f-string inserts). */
  function Str(v: Value): string
  {
    match v
    case Text(s) => s
    case Number(n) => IntToString(n)
    case Sized(r, _) => r
    case Other(r) => r
  }

  predicate IsDigit(c: char)
  {
    '0' <= c <= '9'
  }

  function DigitChar(d: nat): (c: char)
    requires d < 10
    ensures IsDigit(c) && (c as int) - ('0' as int) == d
  {
    (('0' as int) + d) as char
  }

  function DigitValue(c: char): (d: nat)
    requires IsDigit(c)
    ensures d < 10
  {
    (c as int) - ('0' as int)
  }

  /** Decimal text of a natural number, most significant digit first. */
  function NatToString(n: nat): (r: string)
    ensures |r| >= 1
    ensures forall i :: 0 <= i < |r| ==> IsDigit(r[i])
    ensures |r| > 1 ==> r[0] != '0'
    decreases n
  {
    if n < 10 then [DigitChar(n)] else NatToString(n / 10) + [DigitChar(n % 10)]
  }

  /** The number a string of decimal digits denotes: the reference against
      which NatToString is checked. */
  function DecimalValue(s: string): nat
    requires forall i :: 0 <= i < |s| ==> IsDigit(s[i])
  {
    if s == [] then 0 else DecimalValue(s[..|s| - 1]) * 10 + DigitValue(s[|s| - 1])
  }

  lemma {:induction false} DecimalRoundTrip(n: nat)
    ensures DecimalValue(NatToString(n)) == n
  {
    if n >= 10 {
      var a := NatToString(n / 10);
      var r := NatToString(n);
      assert r == a + [DigitChar(n % 10)];
      assert r[..|r| - 1] == a;
      DecimalRoundTrip(n / 10);
    }
  }

  /** Python's `str()` of an int: an optional minus sign, then the digits. */
  function IntToString(n: int): (r: string)
    ensures r != []
    ensures forall i :: 0 <= i < |r| ==> IsDigit(r[i]) || (i == 0 && r[i] == '-')
    ensures (r[0] == '-') <==> n < 0
  {
    if n < 0 then "-" + NatToString(-n) else NatToString(n)
  }

  /** The digits of `str(n)` denote the magnitude of `n`. */
  lemma IntToStringValue(n: int)
    ensures var r := IntToString(n);
      var digits := if n < 0 then r[1..] else r;
      (forall i :: 0 <= i < |digits| ==> IsDigit(digits[i])) &&
      DecimalValue(digits) == (if n < 0 then -n else n)
  {
    if n < 0 {
      assert IntToString(n)[1..] == NatToString(-n);
      DecimalRoundTrip(-n);
    } else {
      DecimalRoundTrip(n);
    }
  }

  /** Distinct integers print differently, so distinct seeds give distinct
      seed texts. */
  lemma IntToStringInjective(a: int, b: int)
    requires IntToString(a) == IntToString(b)
    ensures a == b
  {
    IntToStringValue(a);
    IntToStringValue(b);
  }
}

=== FILE: history.dfy ===
/** The history index: one summary entry per save, kept in a single JSON list
    file in the metadata directory, and the selection the history panel shows. */
module History {
  import opened Common
  import opened Naming
  import opened Records

  /** One summary entry of the history list. The preview is the cut prompt
      text, or a short non-text prompt kept as it was. */
  datatype Entry = Entry(timestamp: string, filename: string, preview: Value, metadataFile: string)

  /** The history file as the JSON decoder finds it. */
  datatype HistoryFile = Missing | Unreadable | Stored(entries: seq<Entry>)

  const PreviewLimit: nat := 100

  /** The prompt shown in the history: cut to 100 characters, with an ellipsis
      when something was cut. */
  function Preview(prompt: string): (r: string)
    ensures |r| <= PreviewLimit + 3
    ensures |prompt| <= PreviewLimit ==> r == prompt
    ensures |prompt| > PreviewLimit ==> |r| == PreviewLimit + 3 && r[..PreviewLimit] == prompt[..PreviewLimit] && r[PreviewLimit..] == "..."
  {
    if |prompt| > PreviewLimit then prompt[..PreviewLimit] + "..." else prompt
  }

  /** The preview expression applied to whatever the prompt is. `len` needs an
      object with a length; a longer one is then cut and joined to "...",
      which only text survives. So a number or other unsized object fails, a
      list, tuple or dict of at most 100 items is kept as it is, and a longer
      one fails. */
  function PreviewOf(prompt: Value): (r: Result<Value>)
    ensures r.Ok? <==> prompt.Text? || (prompt.Sized? && prompt.size <= PreviewLimit)
    ensures prompt.Text? ==> r == Ok(Text(Preview(prompt.s)))
    ensures prompt.Sized? && prompt.size <= PreviewLimit ==> r == Ok(prompt)
    ensures r.Err? ==> r.fault == (if prompt.Sized? then PromptNotCuttable else PromptHasNoLength)
  {
    match prompt
    case Text(s) => Ok(Text(Preview(s)))
    case Sized(_, size) => if size > PreviewLimit then Err(PromptNotCuttable) else Ok(prompt)
    case _ => Err(PromptHasNoLength)
  }

  /** `load_history` and the load step of `update_history`: a history file that
      is absent or cannot be decoded reads as the empty list. */
  function LoadHistory(f: HistoryFile): (h: seq<Entry>)
    ensures f.Stored? ==> h == f.entries
    ensures !f.Stored? ==> h == []
  {
    match f
    case Stored(entries) => entries
    case _ => []
  }

  /** The summary entry `update_history` appends for a record. The sidecar it
      points at is named after the text of `filename` before its first dot. */
  function EntryFor(metadata: Record, metadataDir: string): (r: Result<Entry>)
    ensures r.Ok? <==> PreviewOf(PromptOf(metadata.parameters)).Ok?
    ensures r.Err? ==> r.fault == PreviewOf(PromptOf(metadata.parameters)).fault
    ensures r.Ok? ==> r.value.timestamp == metadata.timestamp && r.value.filename == metadata.filename
    ensures r.Ok? ==> r.value.preview == PreviewOf(PromptOf(metadata.parameters)).value
    ensures r.Ok? ==> r.value.metadataFile == Join(metadataDir, FirstSegment(metadata.filename) + SidecarExt)
  {
    match PreviewOf(PromptOf(metadata.parameters))
    case Err(f) => Err(f)
    case Ok(preview) =>
      Ok(Entry(metadata.timestamp, metadata.filename, preview,
               Join(metadataDir, FirstSegment(metadata.filename) + SidecarExt)))
  }

  /** The history file after `update_history` appends `e`: whatever could be
      loaded, then `e`. Nothing is de-duplicated. */
  function Appended(f: HistoryFile, e: Entry): (g: HistoryFile)
    ensures g.Stored?
    ensures |g.entries| == |LoadHistory(f)| + 1
    ensures g.entries[..|LoadHistory(f)|] == LoadHistory(f)
    ensures g.entries[|LoadHistory(f)|] == e
  {
    Stored(LoadHistory(f) + [e])
  }

  /** How many entries of `es` name `filename`. */
  function CountNamed(es: seq<Entry>, filename: string): nat
  {
    if es == [] then 0
    else CountNamed(es[..|es| - 1], filename) + (if es[|es| - 1].filename == filename then 1 else 0)
  }

  /** Appending never replaces: a repeated file name gets a second entry. */
  lemma AppendedKeepsDuplicates(f: HistoryFile, e: Entry)
    ensures CountNamed(Appended(f, e).entries, e.filename) == CountNamed(LoadHistory(f), e.filename) + 1
  {
    var g := Appended(f, e).entries;
    assert g[..|g| - 1] == LoadHistory(f);
  }

  /** `[item for item in history if item["filename"] != filename]`. */
  function WithoutFile(es: seq<Entry>, filename: string): (r: seq<Entry>)
    ensures |r| <= |es|
    ensures forall e :: e in r <==> e in es && e.filename != filename
  {
    if es == [] then []
    else (if es[0].filename != filename then [es[0]] else []) + WithoutFile(es[1..], filename)
  }

  /** The filter keeps the relative order of what it keeps: filtering a
      concatenation filters each part in place. */
  lemma {:induction false} WithoutFileConcat(a: seq<Entry>, b: seq<Entry>, filename: string)
    ensures WithoutFile(a + b, filename) == WithoutFile(a, filename) + WithoutFile(b, filename)
  {
    if a != [] {
      assert (a + b)[1..] == a[1..] + b;
      WithoutFileConcat(a[1..], b, filename);
    } else {
      assert a + b == b;
    }
  }

  /** Removing a name twice removes no more than removing it once. */
  lemma {:induction false} WithoutFileIdempotent(es: seq<Entry>, filename: string)
    ensures WithoutFile(WithoutFile(es, filename), filename) == WithoutFile(es, filename)
  {
    if es != [] {
      WithoutFileIdempotent(es[1..], filename);
      var head := if es[0].filename != filename then [es[0]] else [];
      WithoutFileConcat(head, WithoutFile(es[1..], filename), filename);
      if es[0].filename != filename {
        assert WithoutFile(head, filename) == head by {
          assert head[1..] == [];
        }
      }
    }
  }

  /** A list with no entry for the name is left exactly as it is. */
  lemma {:induction false} WithoutAbsentFile(es: seq<Entry>, filename: string)
    requires forall i :: 0 <= i < |es| ==> es[i].filename != filename
    ensures WithoutFile(es, filename) == es
  {
    if es != [] {
      WithoutAbsentFile(es[1..], filename);
      assert es == [es[0]] + es[1..];
    }
  }

  // ---------------------------------------------------------------------------
  // Ordering of the history panel

  /** Python's `<` on strings: lexicographic by code point, a proper prefix
      first. ISO-8601 stamps of one format compare as the instants they name. */
  predicate Before(a: string, b: string)
    ensures Before(a, b) ==> a != b
  {
    if a == [] then b != []
    else if b == [] then false
    else if a[0] != b[0] then a[0] < b[0]
    else Before(a[1..], b[1..])
  }

  lemma {:induction false} BeforeIrreflexive(a: string)
    ensures !Before(a, a)
  {
    if a != [] {
      BeforeIrreflexive(a[1..]);
    }
  }

  lemma {:induction false} BeforeTransitive(a: string, b: string, c: string)
    requires Before(a, b) && Before(b, c)
    ensures Before(a, c)
  {
    if a != [] && b != [] && c != [] && a[0] == b[0] && b[0] == c[0] {
      BeforeTransitive(a[1..], b[1..], c[1..]);
    }
  }

  lemma {:induction false} BeforeTotal(a: string, b: string)
    ensures Before(a, b) || a == b || Before(b, a)
  {
    if a != [] && b != [] && a[0] == b[0] {
      BeforeTotal(a[1..], b[1..]);
      if a[1..] == b[1..] {
        assert a == [a[0]] + a[1..] && b == [b[0]] + b[1..];
      }
    }
  }

  lemma BeforeAsymmetric(a: string, b: string)
    requires Before(a, b)
    ensures !Before(b, a)
  {
    if Before(b, a) {
      BeforeTransitive(a, b, a);
      BeforeIrreflexive(a);
    }
  }

  /** `x` sorts after `y` under `sort(key=timestamp, reverse=True)`. */
  predicate Older(x: Entry, y: Entry)
  {
    Before(x.timestamp, y.timestamp)
  }

  /** "Not older" is transitive, so a newest-first list is ordered throughout. */
  lemma NotOlderTransitive(x: Entry, y: Entry, z: Entry)
    requires !Older(x, y) && !Older(y, z)
    ensures !Older(x, z)
  {
    BeforeTotal(x.timestamp, y.timestamp);
    BeforeTotal(y.timestamp, z.timestamp);
    if Before(z.timestamp, y.timestamp) && Before(y.timestamp, x.timestamp) {
      BeforeTransitive(z.timestamp, y.timestamp, x.timestamp);
    }
    if Older(x, z) {
      if Before(z.timestamp, x.timestamp) {
        BeforeAsymmetric(z.timestamp, x.timestamp);
      } else {
        BeforeIrreflexive(x.timestamp);
      }
    }
  }

  predicate NewestFirst(s: seq<Entry>)
  {
    forall i, j :: 0 <= i < j < |s| ==> !Older(s[i], s[j])
  }

  /** Places `e` after every entry of `s` that is not older than it, scanning
      from the end: the step of a stable descending insertion sort. */
  function InsertNewest(s: seq<Entry>, e: Entry): (r: seq<Entry>)
    ensures |r| == |s| + 1
  {
    if s == [] || !Older(s[|s| - 1], e) then s + [e]
    else
      assert s == s[..|s| - 1] + [s[|s| - 1]];
      InsertNewest(s[..|s| - 1], e) + [s[|s| - 1]]
  }

  /** The history in display order: `sort(key=timestamp, reverse=True)`. Python's
      sort is stable, also in reverse, so equal stamps keep their list order. */
  function SortNewestFirst(s: seq<Entry>): (r: seq<Entry>)
    ensures |r| == |s|
  {
    if s == [] then []
    else
      assert s == s[..|s| - 1] + [s[|s| - 1]];
      InsertNewest(SortNewestFirst(s[..|s| - 1]), s[|s| - 1])
  }

  /** Inserting keeps every entry and adds the new one. */
  lemma {:induction false} InsertNewestPermutes(s: seq<Entry>, e: Entry)
    ensures multiset(InsertNewest(s, e)) == multiset(s) + multiset{e}
  {
    if s != [] && Older(s[|s| - 1], e) {
      InsertNewestPermutes(s[..|s| - 1], e);
      assert s == s[..|s| - 1] + [s[|s| - 1]];
    }
  }

  /** The display order is a permutation of the history. */
  lemma {:induction false} SortNewestFirstPermutes(s: seq<Entry>)
    ensures multiset(SortNewestFirst(s)) == multiset(s)
  {
    if s != [] {
      var s', last := s[..|s| - 1], s[|s| - 1];
      SortNewestFirstPermutes(s');
      InsertNewestPermutes(SortNewestFirst(s'), last);
      assert SortNewestFirst(s) == InsertNewest(SortNewestFirst(s'), last);
      MultisetOfLast(s);
    }
  }

  /** The multiset of a nonempty list splits off its last element. */
  lemma MultisetOfLast<T>(s: seq<T>)
    requires s != []
    ensures multiset(s) == multiset(s[..|s| - 1]) + multiset{s[|s| - 1]}
  {
    assert s == s[..|s| - 1] + [s[|s| - 1]];
  }

  lemma {:induction false} InsertNewestOrders(s: seq<Entry>, e: Entry)
    requires NewestFirst(s)
    ensures NewestFirst(InsertNewest(s, e))
  {
    if s == [] || !Older(s[|s| - 1], e) {
      var r := s + [e];
      forall i, j | 0 <= i < j < |r| ensures !Older(r[i], r[j]) {
        if j == |s| && i < |s| - 1 {
          NotOlderTransitive(s[i], s[|s| - 1], e);
        }
      }
    } else {
      var s', last := s[..|s| - 1], s[|s| - 1];
      InsertNewestOrders(s', e);
      InsertNewestPermutes(s', e);
      var q := InsertNewest(s', e);
      var r := q + [last];
      forall i, j | 0 <= i < j < |r| ensures !Older(r[i], r[j]) {
        if j == |q| {
          assert r[i] in multiset(q);
          if r[i] == e {
            BeforeAsymmetric(last.timestamp, e.timestamp);
          } else {
            assert r[i] in multiset(s');
            var k :| 0 <= k < |s'| && s'[k] == r[i];
          }
        }
      }
    }
  }

  /** The display order is newest first. */
  lemma {:induction false} SortNewestFirstOrders(s: seq<Entry>)
    ensures NewestFirst(SortNewestFirst(s))
  {
    if s != [] {
      SortNewestFirstOrders(s[..|s| - 1]);
      InsertNewestOrders(SortNewestFirst(s[..|s| - 1]), s[|s| - 1]);
    }
  }

  /** The entries of `s` stamped exactly `t`, in list order. */
  function AtTime(s: seq<Entry>, t: string): seq<Entry>
  {
    if s == [] then []
    else AtTime(s[..|s| - 1], t) + (if s[|s| - 1].timestamp == t then [s[|s| - 1]] else [])
  }

  lemma {:induction false} AtTimeConcat(a: seq<Entry>, b: seq<Entry>, t: string)
    ensures AtTime(a + b, t) == AtTime(a, t) + AtTime(b, t)
  {
    if b == [] {
      assert a + b == a;
    } else {
      assert (a + b)[..|a + b| - 1] == a + b[..|b| - 1];
      AtTimeConcat(a, b[..|b| - 1], t);
    }
  }

  lemma AtTimeSingle(x: Entry, t: string)
    ensures AtTime([x], t) == if x.timestamp == t then [x] else []
  {
    assert [x][..0] == [];
  }

  lemma {:induction false} InsertNewestAtTime(s: seq<Entry>, e: Entry, t: string)
    ensures AtTime(InsertNewest(s, e), t) == AtTime(s, t) + AtTime([e], t)
  {
    if s == [] || !Older(s[|s| - 1], e) {
      AtTimeConcat(s, [e], t);
    } else {
      var s', last := s[..|s| - 1], s[|s| - 1];
      var q := InsertNewest(s', e);
      assert InsertNewest(s, e) == q + [last];
      assert s == s' + [last];
      InsertNewestAtTime(s', e, t);
      AtTimeConcat(q, [last], t);
      AtTimeConcat(s', [last], t);
      AtTimeSingle(e, t);
      AtTimeSingle(last, t);
      if last.timestamp == t {
        BeforeIrreflexive(t);
        assert AtTime([e], t) == [];
        assert AtTime(q, t) == AtTime(s', t);
        assert AtTime(s, t) + AtTime([e], t) == AtTime(s', t) + [last];
      } else {
        assert AtTime([last], t) == [];
        assert AtTime(InsertNewest(s, e), t) == AtTime(s', t) + AtTime([e], t);
        assert AtTime(s, t) == AtTime(s', t);
      }
    }
  }

  /** The sort is stable: entries with the same stamp keep their list order. */
  lemma {:induction false} SortNewestFirstStable(s: seq<Entry>, t: string)
    ensures AtTime(SortNewestFirst(s), t) == AtTime(s, t)
  {
    if s != [] {
      var s', last := s[..|s| - 1], s[|s| - 1];
      SortNewestFirstStable(s', t);
      InsertNewestAtTime(SortNewestFirst(s'), last, t);
      assert s == s' + [last];
      AtTimeConcat(s', [last], t);
    }
  }

  /** `history.sort(key=lambda x: x["timestamp"], reverse=True)`, in place: an
      insertion sort that shifts older entries right. */
  method SortNewestFirstInPlace(a: array<Entry>)
    modifies a
    ensures a[..] == SortNewestFirst(old(a[..]))
  {
    ghost var o := a[..];
    var i := 0;
    while i < a.Length
      invariant 0 <= i <= a.Length
      invariant a[..i] == SortNewestFirst(o[..i])
      invariant a[i..] == o[i..]
    {
      assert a[i] == o[i] by { assert a[i..][0] == a[i]; }
      SortNewestFirstSnoc(o, i);
      InsertInPlace(a, i);
      assert a[i + 1..] == o[i + 1..] by {
        assert o[i + 1..] == o[i..][1..];
      }
      i := i + 1;
    }
    assert o[..a.Length] == o;
  }

  lemma SortNewestFirstSnoc(s: seq<Entry>, i: nat)
    requires i < |s|
    ensures SortNewestFirst(s[..i + 1]) == InsertNewest(SortNewestFirst(s[..i]), s[i])
  {
    assert s[..i + 1][..i] == s[..i];
  }

  /** One step of the insertion sort: moves `a[i]` into the sorted prefix
      `a[..i]`, leaving the rest of the array alone. */
  method InsertInPlace(a: array<Entry>, i: nat)
    requires i < a.Length
    modifies a
    ensures a[..i + 1] == InsertNewest(old(a[..i]), old(a[i]))
    ensures a[i + 1..] == old(a[i + 1..])
  {
    ghost var sorted := a[..i];
    var e := a[i];
    var j := i;
    while j > 0 && Older(a[j - 1], e)
      invariant 0 <= j <= i
      invariant forall k :: 0 <= k < j ==> a[k] == sorted[k]
      invariant forall k :: j < k <= i ==> a[k] == sorted[k - 1]
      invariant forall k :: i < k < a.Length ==> a[k] == old(a[k])
      invariant forall k :: j <= k < i ==> Older(sorted[k], e)
    {
      a[j] := a[j - 1];
      j := j - 1;
    }
    ghost var mid := a[..];
    a[j] := e;
    assert a[..] == mid[j := e];
    PlacedShape(mid, sorted, e, i, j);
    InsertNewestSplit(sorted, e, j);
  }

  /** Where the insertion step puts `e`: after the entries not older than it,
      before the run of older ones that ends the list. */
  lemma {:induction false} InsertNewestSplit(sorted: seq<Entry>, e: Entry, j: nat)
    requires j <= |sorted|
    requires j == 0 || !Older(sorted[j - 1], e)
    requires forall k :: j <= k < |sorted| ==> Older(sorted[k], e)
    ensures InsertNewest(sorted, e) == sorted[..j] + [e] + sorted[j..]
    decreases |sorted|
  {
    if |sorted| == j {
      assert sorted[..j] == sorted && sorted[j..] == [];
    } else {
      var init := sorted[..|sorted| - 1];
      InsertNewestSplit(init, e, j);
      assert init[..j] == sorted[..j];
      assert sorted[j..] == init[j..] + [sorted[|sorted| - 1]];
    }
  }

  /** The array after the last shift, with `e` written at the gap. */
  lemma PlacedShape(mid: seq<Entry>, sorted: seq<Entry>, e: Entry, i: nat, j: nat)
    requires j <= i == |sorted| < |mid|
    requires forall k :: 0 <= k < j ==> mid[k] == sorted[k]
    requires forall k :: j < k <= i ==> mid[k] == sorted[k - 1]
    ensures mid[j := e][..i + 1] == sorted[..j] + [e] + sorted[j..]
  {
    var r := sorted[..j] + [e] + sorted[j..];
    var m := mid[j := e];
    forall k | 0 <= k <= i ensures m[k] == r[k] {
      if k < j {
        assert r[k] == sorted[k];
      } else if k > j {
        assert r[k] == sorted[k - 1];
      }
    }
  }

  // ---------------------------------------------------------------------------
  // What the history panel shows

  /** The entries whose image file is present, in list order: the existence
      test of the rendering loop. Nothing is removed from the history. */
  function KeepOnDisk(s: seq<Entry>, files: set<string>): (r: seq<Entry>)
    ensures |r| <= |s|
    ensures forall e :: e in r ==> e in s && OnDisk(files, e.filename)
  {
    if s == [] then []
    else KeepOnDisk(s[..|s| - 1], files) + (if OnDisk(files, s[|s| - 1].filename) then [s[|s| - 1]] else [])
  }

  /** Every entry whose image is present is shown as often as it is listed. */
  lemma {:induction false} KeepOnDiskCounts(s: seq<Entry>, files: set<string>, e: Entry)
    ensures multiset(KeepOnDisk(s, files))[e] == if OnDisk(files, e.filename) then multiset(s)[e] else 0
  {
    if s != [] {
      KeepOnDiskCounts(s[..|s| - 1], files, e);
      assert s == s[..|s| - 1] + [s[|s| - 1]];
    }
  }

  lemma {:induction false} KeepOnDiskOrders(s: seq<Entry>, files: set<string>)
    requires NewestFirst(s)
    ensures NewestFirst(KeepOnDisk(s, files))
  {
    if s != [] {
      var s', last := s[..|s| - 1], s[|s| - 1];
      KeepOnDiskOrders(s', files);
      var q := KeepOnDisk(s', files);
      var r := KeepOnDisk(s, files);
      forall i, j | 0 <= i < j < |r| ensures !Older(r[i], r[j]) {
        if j >= |q| {
          assert r[i] in s';
          var k :| 0 <= k < |s'| && s'[k] == r[i];
        }
      }
    }
  }

  /** What the history panel renders: a notice when the loaded history is
      empty, otherwise the cards of the entries whose image is present. */
  datatype Selection = NothingSaved | Cards(entries: seq<Entry>)

  /** The selection `create_history_html` makes from the history file and the
      files of the images directory. */
  function SelectionOf(f: HistoryFile, files: set<string>): (sel: Selection)
    ensures sel.NothingSaved? <==> LoadHistory(f) == []
    ensures sel.Cards? ==> |sel.entries| <= |LoadHistory(f)|
  {
    var h := LoadHistory(f);
    if h == [] then NothingSaved else Cards(KeepOnDisk(SortNewestFirst(h), files))
  }

  /** The panel shows exactly the listed entries whose image is present, each as
      often as it is listed, newest first; an unreadable history shows the
      notice instead of failing. */
  lemma SelectionShowsPresentEntries(f: HistoryFile, files: set<string>)
    ensures SelectionOf(f, files).NothingSaved? <==> LoadHistory(f) == []
    ensures SelectionOf(f, files).Cards? ==> NewestFirst(SelectionOf(f, files).entries)
    ensures SelectionOf(f, files).Cards? ==>
      forall e :: multiset(SelectionOf(f, files).entries)[e] ==
        if OnDisk(files, e.filename) then multiset(LoadHistory(f))[e] else 0
  {
    var h := LoadHistory(f);
    if h != [] {
      SortNewestFirstOrders(h);
      SortNewestFirstPermutes(h);
      KeepOnDiskOrders(SortNewestFirst(h), files);
      forall e {
        KeepOnDiskCounts(SortNewestFirst(h), files, e);
      }
    }
  }
}

=== FILE: naming.dfy ===
/** The filename policy of the saver, and the two path helpers of Python's
    `posixpath` that the plugin relies on (`join` and `splitext`). */
module Naming {
  import opened Common

  const ImageExt: string := ".png"
  const SidecarExt: string := ".json"
  /** The history file lives in the metadata directory, beside the sidecars. */
  const HistoryName: string := "history.json"

  /** A stamp as `strftime("%Y%m%d_%H%M%S")` prints it: digits and underscores. */
  predicate StampShaped(stamp: string)
  {
    forall i :: 0 <= i < |stamp| ==> IsDigit(stamp[i]) || stamp[i] == '_'
  }

  /** The base name shared by an image and its sidecar: `image_{stamp}_{seed}`. */
  function BaseName(stamp: string, seedText: string): (b: string)
    ensures |b| == 7 + |stamp| + |seedText| && b[..6] == "image_"
    ensures b[|b| - |seedText|..] == seedText
  {
    "image_" + stamp + "_" + seedText
  }

  /** Stamps have a fixed width, so the base name determines both the stamp and
      the seed: two saves collide exactly when they agree on both. */
  lemma BaseNameInjective(s1: string, x1: string, s2: string, x2: string)
    requires |s1| == |s2|
    ensures BaseName(s1, x1) == BaseName(s2, x2) <==> s1 == s2 && x1 == x2
  {
    if BaseName(s1, x1) == BaseName(s2, x2) {
      var b := BaseName(s1, x1);
      assert s1 == b[6..6 + |s1|];
      assert s2 == BaseName(s2, x2)[6..6 + |s2|];
      assert x1 == b[7 + |s1|..];
      assert x2 == BaseName(s2, x2)[7 + |s2|..];
    }
  }

  function ImageFileName(base: string): string
  {
    base + ImageExt
  }

  function SidecarFileName(base: string): string
  {
    base + SidecarExt
  }

  /** `posixpath.join(dir, name)`. */
  function Join(dir: string, name: string): (path: string)
    ensures |path| >= |name| && path[|path| - |name|..] == name
    ensures name != [] && name[0] == '/' ==> path == name
  {
    if name != [] && name[0] == '/' then name
    else if dir == [] || dir[|dir| - 1] == '/' then dir + name
    else dir + "/" + name
  }

  /** Within one directory, distinct relative names give distinct paths. */
  lemma JoinInjective(dir: string, a: string, b: string)
    requires a == [] || a[0] != '/'
    requires b == [] || b[0] != '/'
    ensures Join(dir, a) == Join(dir, b) <==> a == b
  {
    if Join(dir, a) == Join(dir, b) {
      var prefix := DirPrefix(dir);
      assert Join(dir, a) == prefix + a;
      assert Join(dir, b) == prefix + b;
      assert a == Join(dir, a)[|prefix|..];
    }
  }

  /** The directory part `posixpath.join(dir, name)` puts in front of a relative name. */
  function DirPrefix(dir: string): string
  {
    if dir == [] || dir[|dir| - 1] == '/' then dir else dir + "/"
  }

  /** `s.split('.')[0]`: the text before the first dot. */
  function FirstSegment(s: string): (r: string)
    ensures |r| <= |s| && r == s[..|r|]
    ensures forall i :: 0 <= i < |r| ==> r[i] != '.'
    ensures |r| < |s| ==> s[|r|] == '.'
  {
    if s == [] || s[0] == '.' then [] else [s[0]] + FirstSegment(s[1..])
  }

  /** Index of the last occurrence of `c`, or -1 (Python's `rfind`). */
  function LastIndex(s: string, c: char): (i: int)
    ensures -1 <= i < |s|
    ensures i >= 0 ==> s[i] == c
    ensures forall k :: i < k < |s| ==> s[k] != c
  {
    if s == [] then -1
    else if s[|s| - 1] == c then |s| - 1
    else LastIndex(s[..|s| - 1], c)
  }

  predicate AllDots(s: string)
  {
    forall k :: 0 <= k < |s| ==> s[k] == '.'
  }

  datatype PathSplit = PathSplit(root: string, ext: string)

  /** `posixpath.splitext(p)`: the extension starts at the last dot of the last
      path component, unless everything before that dot in the component is
      dots (so ".png" and "..png" have no extension). */
  function SplitExt(p: string): (r: PathSplit)
    ensures r.root + r.ext == p
    ensures r.ext != [] ==> r.ext[0] == '.'
    ensures forall k :: 1 <= k < |r.ext| ==> r.ext[k] != '.' && r.ext[k] != '/'
    ensures r.ext != [] ==> !AllDots(r.root[LastIndex(p, '/') + 1..])
  {
    var sep := LastIndex(p, '/');
    var dot := LastIndex(p, '.');
    if dot > sep && !AllDots(p[sep + 1..dot]) then PathSplit(p[..dot], p[dot..]) else PathSplit(p, "")
  }

  /** When `splitext` splits: an extension starts at the last dot, which lies
      in the last path component; and no extension is split off only when
      every dot of the last component has nothing but dots before it there. */
  lemma SplitExtAtLastDot(p: string)
    ensures SplitExt(p).ext != [] ==> |SplitExt(p).root| == LastIndex(p, '.') > LastIndex(p, '/')
    ensures SplitExt(p).ext == [] ==> forall k :: LastIndex(p, '/') < k < |p| && p[k] == '.' ==>
      AllDots(p[LastIndex(p, '/') + 1..k])
  {
    var sep := LastIndex(p, '/');
    var dot := LastIndex(p, '.');
    if SplitExt(p).ext == [] {
      forall k | sep < k < |p| && p[k] == '.' ensures AllDots(p[sep + 1..k]) {
        assert k <= dot;
        if dot > sep {
          assert !(dot > sep && !AllDots(p[sep + 1..dot]));
          forall i | sep + 1 <= i < k ensures p[i] == '.' {
            assert p[i] == p[sep + 1..dot][i - sep - 1];
          }
        }
      }
    }
  }

  /** For a name the saver writes (a base without dots or slashes, plus ".png"),
      both ways of recovering the base agree: the history index's first-dot
      split and the delete endpoint's last-extension split. */
  lemma SavedNameStem(base: string)
    requires base != []
    requires forall i :: 0 <= i < |base| ==> base[i] != '.' && base[i] != '/'
    ensures FirstSegment(ImageFileName(base)) == base
    ensures SplitExt(ImageFileName(base)) == PathSplit(base, ImageExt)
  {
    var p := ImageFileName(base);
    assert p[..|base|] == base && p[|base|] == '.';
    assert forall k :: 0 <= k < |base| ==> p[k] != '.' && p[k] != '/';
    assert forall k :: |base| < k < |p| ==> p[k] != '.' && p[k] != '/';
    StemAt(p, |base|);
    assert !AllDots(base) by { assert base[0] != '.'; }
  }

  /** The text before a dot at `d` is both the first segment and the root of a
      dot-free, slash-free prefix followed by an extension without dots. */
  lemma StemAt(p: string, d: nat)
    requires 0 < d < |p| && p[d] == '.'
    requires forall k :: 0 <= k < d ==> p[k] != '.' && p[k] != '/'
    requires forall k :: d < k < |p| ==> p[k] != '.' && p[k] != '/'
    ensures FirstSegment(p) == p[..d]
    ensures SplitExt(p) == PathSplit(p[..d], p[d..])
  {
    FirstSegmentAt(p, d);
    SplitExtAt(p, d);
  }

  lemma SplitExtAt(p: string, d: nat)
    requires 0 < d < |p| && p[d] == '.' && p[0] != '.'
    requires forall k :: 0 <= k < |p| ==> p[k] != '/'
    requires forall k :: d < k < |p| ==> p[k] != '.'
    ensures SplitExt(p) == PathSplit(p[..d], p[d..])
  {
    LastIndexAt(p, '.', d);
    LastIndexAbsent(p, '/');
    assert !AllDots(p[0..d]) by { assert p[0..d][0] == p[0]; }
  }

  lemma FirstSegmentAt(p: string, d: nat)
    requires d < |p| && p[d] == '.'
    requires forall k :: 0 <= k < d ==> p[k] != '.'
    ensures FirstSegment(p) == p[..d]
  {
  }

  lemma LastIndexAt(p: string, c: char, d: nat)
    requires d < |p| && p[d] == c
    requires forall k :: d < k < |p| ==> p[k] != c
    ensures LastIndex(p, c) == d
  {
  }

  lemma LastIndexAbsent(p: string, c: char)
    requires forall k :: 0 <= k < |p| ==> p[k] != c
    ensures LastIndex(p, c) == -1
  {
  }

  /** With a dot inside the base (a seed of "1.5", say) the two derivations part:
      the history index's first-dot split stops at the seed's dot, while the
      sidecar that was written, and the one delete removes, keeps it. */
  lemma DottedBaseStemsDiffer(head: string, tail: string)
    requires head != []
    requires forall i :: 0 <= i < |head| ==> head[i] != '.' && head[i] != '/'
    requires forall i :: 0 <= i < |tail| ==> tail[i] != '.' && tail[i] != '/'
    ensures FirstSegment(ImageFileName(head + "." + tail)) == head
    ensures SplitExt(ImageFileName(head + "." + tail)).root == head + "." + tail
  {
    var base := head + "." + tail;
    var p := base + ImageExt;
    assert p == head + ("." + tail + ImageExt);
    FirstSegmentAt(p, |head|);
    assert p[..|head|] == head;
    assert p == base + ImageExt;
    assert forall k :: 0 <= k < |base| ==> p[k] == base[k];
    assert forall k :: 0 <= k < |p| ==> p[k] != '/';
    SplitExtAt(p, |base|);
    assert p[..|base|] == base;
  }

  /** A name that `posixpath.join(dir, name)` turns into the directory itself. */
  predicate DenotesDirectory(name: string)
  {
    name == "" || name == "."
  }

  /** What `os.path.exists(join(dir, name))` sees for a name without a slash,
      given the files in `dir`: the directory itself, its parent, or a file. */
  predicate OnDisk(files: set<string>, name: string)
    ensures !DenotesDirectory(name) && name != ".." ==> (OnDisk(files, name) <==> name in files)
    ensures DenotesDirectory(name) || name == ".." ==> OnDisk(files, name)
  {
    DenotesDirectory(name) || name == ".." || name in files
  }
}

=== FILE: records.dfy ===
/** The record the saver writes for one generation event, built from the image
    and the parameter object the host hands over (`extract_metadata`). */
module Records {
  import opened Common

  /** A host image: opaque pixel data, plus the info mapping image codecs attach
      (empty when the image carries none). */
  datatype Image = Image(pixels: seq<int>, info: map<string, Value>)

  /** The fields the saver reads from a txt2img or img2img processing object. */
  datatype Processing = Processing(
    prompt: string,
    negativePrompt: string,
    steps: int,
    samplerName: string,
    cfgScale: real,
    seed: int,
    width: int,
    height: int,
    batchSize: Option<int>)  // None when the object has no batch_size attribute

  /** The parameter object handed to the saver: one of the two recognised
      processing classes, any other object (seen through its attribute mapping,
      empty when it exposes none), or nothing at all. */
  datatype GenerationInput =
    | Absent
    | Txt2Img(proc: Processing)
    | Img2Img(proc: Processing)
    | Unstructured(attributes: map<string, Value>)

  /** The model the host has loaded, if any. */
  datatype LoadedModel = LoadedModel(name: string, hash: string)

  /** The record's "parameters" object: the structured fields taken from a
      processing object, or an attribute mapping copied as it is. */
  datatype Parameters =
    | Generation(
        prompt: string,
        negativePrompt: string,
        steps: int,
        sampler: string,
        cfgScale: real,
        seed: int,
        size: string,
        model: string,
        modelHash: string,
        batchSize: int,
        kind: string)
    | Attributes(fields: map<string, Value>)

  const NoParameters: Parameters := Attributes(map[])

  /** One sidecar record. `filename` and `imagePath` are filled in once the
      image has been written. */
  datatype Record = Record(
    timestamp: string,
    filename: string,
    parameters: Parameters,
    imageInfo: Option<map<string, Value>>,
    parsedParameters: Option<Value>,
    imagePath: Option<string>)

  /** The structured parameters of a recognised processing object. */
  function GenerationParameters(kind: string, proc: Processing, model: Option<LoadedModel>): (r: Parameters)
    ensures r.Generation? && r.kind == kind
    ensures r.prompt == proc.prompt && r.negativePrompt == proc.negativePrompt && r.seed == proc.seed
    ensures r.steps == proc.steps && r.sampler == proc.samplerName && r.cfgScale == proc.cfgScale
    ensures r.size == IntToString(proc.width) + "x" + IntToString(proc.height)
    ensures r.batchSize == (if proc.batchSize.Some? then proc.batchSize.value else 1)
    ensures model.None? ==> r.model == "unknown" && r.modelHash == "unknown"
    ensures model.Some? ==> r.model == model.value.name && r.modelHash == model.value.hash
  {
    Generation(
      proc.prompt,
      proc.negativePrompt,
      proc.steps,
      proc.samplerName,
      proc.cfgScale,
      proc.seed,
      IntToString(proc.width) + "x" + IntToString(proc.height),
      match model case Some(m) => m.name case None => "unknown",
      match model case Some(m) => m.hash case None => "unknown",
      proc.batchSize.GetOr(1),
      kind)
  }

  /** A fresh record for `image`; `now` is the clock reading taken for it. */
  function ExtractMetadata(image: Image, p: GenerationInput, now: string, model: Option<LoadedModel>): (r: Record)
    ensures r.timestamp == now && r.filename == "" && r.imagePath == None
    ensures p.Absent? ==> r.parameters == NoParameters
    ensures p.Unstructured? ==> r.parameters == Attributes(p.attributes)
    ensures r.parameters.Generation? <==> p.Txt2Img? || p.Img2Img?
    ensures r.parameters.Generation? ==>
      r.parameters.kind == (if p.Txt2Img? then "txt2img" else "img2img")
    ensures p.Txt2Img? || p.Img2Img? ==>
      r.parameters == GenerationParameters(if p.Txt2Img? then "txt2img" else "img2img", p.proc, model)
    ensures r.imageInfo.Some? <==> image.info != map[]
    ensures r.imageInfo.Some? ==> r.imageInfo.value == image.info
    ensures r.parsedParameters.Some? <==> "parameters" in image.info && Truthy(image.info["parameters"])
    ensures r.parsedParameters.Some? ==> r.parsedParameters.value == image.info["parameters"]
  {
    var parameters :=
      match p
      case Absent => NoParameters
      case Txt2Img(proc) => GenerationParameters("txt2img", proc, model)
      case Img2Img(proc) => GenerationParameters("img2img", proc, model)
      case Unstructured(attributes) => Attributes(attributes);
    var embedded := if "parameters" in image.info then image.info["parameters"] else Text("");
    Record(
      now,
      "",
      parameters,
      if image.info != map[] then Some(image.info) else None,
      if Truthy(embedded) then Some(embedded) else None,
      None)
  }

  /** The seed as it is inserted into file names: `parameters.get('seed', 'unknown')`. */
  function SeedText(params: Parameters): (t: string)
    ensures params.Generation? ==> t == IntToString(params.seed)
    ensures params.Attributes? && "seed" !in params.fields ==> t == "unknown"
    ensures params.Attributes? && "seed" in params.fields ==> t == Str(params.fields["seed"])
  {
    match params
    case Generation(_, _, _, _, _, seed, _, _, _, _, _) => IntToString(seed)
    case Attributes(fields) => if "seed" in fields then Str(fields["seed"]) else "unknown"
  }

  /** The prompt the history preview is cut from: `parameters.get("prompt", "")`.
      A structured record's prompt is always text; an attribute mapping's
      prompt is whatever value the object held. */
  function PromptOf(params: Parameters): (r: Value)
    ensures params.Generation? ==> r == Text(params.prompt)
    ensures params.Attributes? && "prompt" !in params.fields ==> r == Text("")
    ensures params.Attributes? && "prompt" in params.fields ==> r == params.fields["prompt"]
  {
    match params
    case Generation(prompt, _, _, _, _, _, _, _, _, _, _) => Text(prompt)
    case Attributes(fields) => if "prompt" in fields then fields["prompt"] else Text("")
  }

  /** The seed text of a recognised processing object can never break a file
      name: it is a decimal number, so it has no dot, slash or backslash. */
  lemma GenerationSeedIsFilenameSafe(params: Parameters)
    requires params.Generation?
    ensures forall i :: 0 <= i < |SeedText(params)| ==>
      SeedText(params)[i] != '.' && SeedText(params)[i] != '/' && SeedText(params)[i] != '\\'
  {
    var t := SeedText(params);
    forall i | 0 <= i < |t| ensures t[i] != '.' && t[i] != '/' && t[i] != '\\' {
      assert IsDigit(t[i]) || t[i] == '-';
    }
  }

  /** Without a parameter object the record names no seed and has an empty
      prompt, so the save falls back to "unknown" and an empty preview. */
  lemma AbsentParametersFallBack(image: Image, now: string, model: Option<LoadedModel>)
    ensures SeedText(ExtractMetadata(image, Absent, now, model).parameters) == "unknown"
    ensures PromptOf(ExtractMetadata(image, Absent, now, model).parameters) == Text("")
  {
  }
}

=== FILE: saver.dfy ===
/** The saver's store: image files in the images directory, sidecar records and
    the history file in the metadata directory, and the save path that writes
    all three (`save_image_with_metadata`, `update_history`), plus the
    selection the history panel renders (`create_history_html`). */
module Saver {
  import opened Common
  import opened Naming
  import opened Records
  import opened History

  /** The two directories of the plugin, both under its install directory. */
  datatype StoreConfig = StoreConfig(imagesDir: string, metadataDir: string)

  /** The store's contents at one moment: images by file name, sidecar records
      by file name, and the history file. */
  datatype Snapshot = Snapshot(images: map<string, Image>, sidecars: map<string, Record>, history: HistoryFile)

  /** The history file is tracked on its own, never as a sidecar. */
  predicate WellFormed(st: Snapshot)
  {
    HistoryName !in st.sidecars
  }

  /** The paths a successful save reports. */
  datatype Saved = Saved(imagePath: string, jsonPath: string)

  datatype SaveOutcome = SaveOutcome(after: Snapshot, result: Result<Saved>)

  /** The base name a save picks: the stamp it is given and the seed of the
      parameter object, or "unknown". */
  function SaveBase(p: GenerationInput, stamp: string, model: Option<LoadedModel>): (b: string)
    ensures p.Absent? || (p.Unstructured? && "seed" !in p.attributes) ==> b == BaseName(stamp, "unknown")
    ensures (p.Txt2Img? || p.Img2Img?) ==> b == BaseName(stamp, IntToString(p.proc.seed))
    ensures p.Unstructured? && "seed" in p.attributes ==> b == BaseName(stamp, Str(p.attributes["seed"]))
  {
    BaseName(stamp, SeedText(ExtractMetadata(Image([], map[]), p, "", model).parameters))
  }

  /** The record a save writes to the sidecar: the extracted record with the
      image's file name and path filled in. */
  function WrittenRecord(cfg: StoreConfig, image: Image, p: GenerationInput, now: string, stamp: string, model: Option<LoadedModel>): (r: Record)
    ensures r.filename == ImageFileName(SaveBase(p, stamp, model)) && r.filename != ""
    ensures r.imagePath == Some(Join(cfg.imagesDir, r.filename))
    ensures var extracted := ExtractMetadata(image, p, now, model);
      r.timestamp == extracted.timestamp && r.parameters == extracted.parameters &&
      r.imageInfo == extracted.imageInfo && r.parsedParameters == extracted.parsedParameters
  {
    var metadata := ExtractMetadata(image, p, now, model);
    var name := ImageFileName(BaseName(stamp, SeedText(metadata.parameters)));
    metadata.(filename := name, imagePath := Some(Join(cfg.imagesDir, name)))
  }

  /** What one save does to the store. `now` is the clock reading the record is
      stamped with and `stamp` the (separate) one its name is built from. The
      image and the sidecar are written before the history is touched, so a
      failure there leaves both files behind. */
  function SaveEffect(st: Snapshot, cfg: StoreConfig, image: Image, p: GenerationInput,
                      now: string, stamp: string, model: Option<LoadedModel>): (o: SaveOutcome)
    ensures var base := SaveBase(p, stamp, model);
      && o.after.images == st.images[ImageFileName(base) := image]
      && o.after.sidecars == st.sidecars[SidecarFileName(base) := WrittenRecord(cfg, image, p, now, stamp, model)]
    ensures o.result.Ok? <==> EntryFor(WrittenRecord(cfg, image, p, now, stamp, model), cfg.metadataDir).Ok?
    ensures o.result.Err? ==> o.after.history == st.history
    ensures o.result.Err? ==> o.result.fault == PromptHasNoLength || o.result.fault == PromptNotCuttable
    ensures o.result.Ok? ==> var base := SaveBase(p, stamp, model);
      o.result.value == Saved(Join(cfg.imagesDir, ImageFileName(base)), Join(cfg.metadataDir, SidecarFileName(base)))
  {
    var written := WrittenRecord(cfg, image, p, now, stamp, model);
    var base := SaveBase(p, stamp, model);
    var images := st.images[ImageFileName(base) := image];
    var sidecars := st.sidecars[SidecarFileName(base) := written];
    match EntryFor(written, cfg.metadataDir)
    case Err(f) => SaveOutcome(Snapshot(images, sidecars, st.history), Err(f))
    case Ok(entry) =>
      SaveOutcome(Snapshot(images, sidecars, Appended(st.history, entry)),
                  Ok(Saved(Join(cfg.imagesDir, ImageFileName(base)), Join(cfg.metadataDir, SidecarFileName(base)))))
  }

  /** A successful save adds exactly one history entry, after all the earlier
      ones, naming the image and carrying the record's stamp and the preview of
      its prompt; an unreadable history file is started afresh. */
  lemma SaveAppendsOneEntry(st: Snapshot, cfg: StoreConfig, image: Image, p: GenerationInput,
                            now: string, stamp: string, model: Option<LoadedModel>)
    requires SaveEffect(st, cfg, image, p, now, stamp, model).result.Ok?
    ensures var h := LoadHistory(SaveEffect(st, cfg, image, p, now, stamp, model).after.history);
      && |h| == |LoadHistory(st.history)| + 1
      && h[..|LoadHistory(st.history)|] == LoadHistory(st.history)
      && h[|h| - 1].filename == ImageFileName(SaveBase(p, stamp, model))
      && h[|h| - 1].timestamp == now
      && h[|h| - 1].preview == PreviewOf(PromptOf(ExtractMetadata(image, p, now, model).parameters)).value
  {
  }

  /** A save succeeds exactly when its prompt can be previewed: text, or a
      list, tuple or dict of at most 100 items. So a save of a recognised
      processing object, whose prompt is text, always succeeds. */
  lemma SaveSucceedsIff(st: Snapshot, cfg: StoreConfig, image: Image, p: GenerationInput,
                        now: string, stamp: string, model: Option<LoadedModel>)
    ensures var prompt := PromptOf(ExtractMetadata(image, p, now, model).parameters);
      SaveEffect(st, cfg, image, p, now, stamp, model).result.Ok?
      <==> prompt.Text? || (prompt.Sized? && prompt.size <= PreviewLimit)
    ensures p.Txt2Img? || p.Img2Img? ==> SaveEffect(st, cfg, image, p, now, stamp, model).result.Ok?
  {
  }

  /** Two txt2img or img2img saves with one stamp and different seeds never
      collide: their base names differ. */
  lemma DistinctSeedsDistinctNames(stamp: string, model: Option<LoadedModel>, p1: GenerationInput, p2: GenerationInput)
    requires p1.Txt2Img? || p1.Img2Img?
    requires p2.Txt2Img? || p2.Img2Img?
    requires p1.proc.seed != p2.proc.seed
    ensures SaveBase(p1, stamp, model) != SaveBase(p2, stamp, model)
  {
    BaseNameInjective(stamp, IntToString(p1.proc.seed), stamp, IntToString(p2.proc.seed));
    if IntToString(p1.proc.seed) == IntToString(p2.proc.seed) {
      IntToStringInjective(p1.proc.seed, p2.proc.seed);
    }
  }

  /** Saving never turns the history file into a sidecar. */
  lemma SaveKeepsWellFormed(st: Snapshot, cfg: StoreConfig, image: Image, p: GenerationInput,
                            now: string, stamp: string, model: Option<LoadedModel>)
    requires WellFormed(st)
    ensures WellFormed(SaveEffect(st, cfg, image, p, now, stamp, model).after)
  {
    var json := SidecarFileName(SaveBase(p, stamp, model));
    assert json[0] == 'i';
    assert HistoryName[0] == 'h';
  }

  /** A base built from a well-formed stamp has no dot, slash or backslash
      when its seed text is the seed of a recognised processing object or the
      "unknown" of a save without one (no object, or an object with no seed). */
  lemma GenerationBaseIsPlain(p: GenerationInput, stamp: string, model: Option<LoadedModel>)
    requires p.Txt2Img? || p.Img2Img? || p.Absent? || (p.Unstructured? && "seed" !in p.attributes)
    requires StampShaped(stamp)
    ensures SaveBase(p, stamp, model) != []
    ensures forall i :: 0 <= i < |SaveBase(p, stamp, model)| ==>
      SaveBase(p, stamp, model)[i] !in {'.', '/', '\\'}
  {
    if p.Txt2Img? || p.Img2Img? {
      var params := ExtractMetadata(Image([], map[]), p, "", model).parameters;
      GenerationSeedIsFilenameSafe(params);
      BaseNamePlain(stamp, SeedText(params));
    } else {
      BaseNamePlain(stamp, "unknown");
    }
  }

  /** A stamp of digits and underscores and a seed text without dots or
      separators make a base without them. */
  lemma BaseNamePlain(stamp: string, seed: string)
    requires StampShaped(stamp)
    requires forall i :: 0 <= i < |seed| ==> seed[i] != '.' && seed[i] != '/' && seed[i] != '\\'
    ensures forall i :: 0 <= i < |BaseName(stamp, seed)| ==> BaseName(stamp, seed)[i] !in {'.', '/', '\\'}
  {
    var b := BaseName(stamp, seed);
    forall i | 0 <= i < |b| ensures b[i] !in {'.', '/', '\\'} {
      if i < 6 {
        assert b[i] == "image_"[i];
      } else if i < 6 + |stamp| {
        assert b[i] == stamp[i - 6];
      } else if i > 6 + |stamp| {
        assert b[i] == seed[i - 7 - |stamp|];
      }
    }
  }

  /** For a recognised processing object, or none, and a well-formed stamp, the sidecar
      the history entry points at is the sidecar the save wrote. */
  lemma SaveIndexPointsAtSidecar(st: Snapshot, cfg: StoreConfig, image: Image, p: GenerationInput,
                                 now: string, stamp: string, model: Option<LoadedModel>)
    requires p.Txt2Img? || p.Img2Img? || p.Absent?
    requires StampShaped(stamp)
    ensures var o := SaveEffect(st, cfg, image, p, now, stamp, model);
      var h := LoadHistory(o.after.history);
      o.result.Ok? && h[|h| - 1].metadataFile == o.result.value.jsonPath
  {
    SaveSucceedsIff(st, cfg, image, p, now, stamp, model);
    var base := SaveBase(p, stamp, model);
    var rec := WrittenRecord(cfg, image, p, now, stamp, model);
    GenerationBaseIsPlain(p, stamp, model);
    assert forall i :: 0 <= i < |base| ==> base[i] != '.';
    EntryPointsAtSidecar(rec, cfg.metadataDir, base);
    SaveAppends(st, cfg, image, p, now, stamp, model);
  }

  /** The entry for a record named after a dot-free base points at that base's
      sidecar: `split('.')[0]` stops at the ".png", whatever else the base holds. */
  lemma EntryPointsAtSidecar(rec: Record, metadataDir: string, base: string)
    requires forall i :: 0 <= i < |base| ==> base[i] != '.'
    requires rec.filename == ImageFileName(base)
    requires EntryFor(rec, metadataDir).Ok?
    ensures EntryFor(rec, metadataDir).value.metadataFile == Join(metadataDir, SidecarFileName(base))
  {
    FirstSegmentAt(ImageFileName(base), |base|);
    assert ImageFileName(base)[..|base|] == base;
  }

  /** Two saves with the same stamp and seed collide: the second image and
      record replace the first on disk. */
  lemma CollidingSavesOverwrite(st: Snapshot, cfg: StoreConfig, stamp: string, model: Option<LoadedModel>,
                                image1: Image, p1: GenerationInput, now1: string,
                                image2: Image, p2: GenerationInput, now2: string)
    requires SaveBase(p1, stamp, model) == SaveBase(p2, stamp, model)
    ensures var base := SaveBase(p1, stamp, model);
      var o := SaveEffect(SaveEffect(st, cfg, image1, p1, now1, stamp, model).after, cfg, image2, p2, now2, stamp, model);
      && o.after.images == st.images[ImageFileName(base) := image2]
      && o.after.sidecars == st.sidecars[SidecarFileName(base) := WrittenRecord(cfg, image2, p2, now2, stamp, model)]
  {
    var base := SaveBase(p1, stamp, model);
    var mid := SaveEffect(st, cfg, image1, p1, now1, stamp, model).after;
    var o := SaveEffect(mid, cfg, image2, p2, now2, stamp, model);
    OverwriteTwice(st.images, ImageFileName(base), image1, image2);
    OverwriteTwice(st.sidecars, SidecarFileName(base), WrittenRecord(cfg, image1, p1, now1, stamp, model),
                   WrittenRecord(cfg, image2, p2, now2, stamp, model));
  }

  /** Writing a file twice leaves the second content. */
  lemma OverwriteTwice<V>(m: map<string, V>, k: string, first: V, second: V)
    ensures m[k := first][k := second] == m[k := second]
  {
  }

  /** ... while the history keeps an entry for each of them. */
  lemma CollidingSavesKeepBothEntries(st: Snapshot, cfg: StoreConfig, stamp: string, model: Option<LoadedModel>,
                                      image1: Image, p1: GenerationInput, now1: string,
                                      image2: Image, p2: GenerationInput, now2: string)
    requires SaveBase(p1, stamp, model) == SaveBase(p2, stamp, model)
    requires PreviewOf(PromptOf(ExtractMetadata(image1, p1, now1, model).parameters)).Ok?
    requires PreviewOf(PromptOf(ExtractMetadata(image2, p2, now2, model).parameters)).Ok?
    ensures var name := ImageFileName(SaveBase(p1, stamp, model));
      var o := SaveEffect(SaveEffect(st, cfg, image1, p1, now1, stamp, model).after, cfg, image2, p2, now2, stamp, model);
      CountNamed(LoadHistory(o.after.history), name) == CountNamed(LoadHistory(st.history), name) + 2
  {
    SaveSucceedsIff(st, cfg, image1, p1, now1, stamp, model);
    SaveSucceedsIff(SaveEffect(st, cfg, image1, p1, now1, stamp, model).after, cfg, image2, p2, now2, stamp, model);
    var h1 := SaveEffect(st, cfg, image1, p1, now1, stamp, model).after.history;
    var e1 := EntryFor(WrittenRecord(cfg, image1, p1, now1, stamp, model), cfg.metadataDir).value;
    var e2 := EntryFor(WrittenRecord(cfg, image2, p2, now2, stamp, model), cfg.metadataDir).value;
    SaveAppends(st, cfg, image1, p1, now1, stamp, model);
    SaveAppends(SaveEffect(st, cfg, image1, p1, now1, stamp, model).after, cfg, image2, p2, now2, stamp, model);
    AppendedKeepsDuplicates(st.history, e1);
    AppendedKeepsDuplicates(h1, e2);
  }

  /** The history file a successful save leaves behind. */
  lemma SaveAppends(st: Snapshot, cfg: StoreConfig, image: Image, p: GenerationInput,
                    now: string, stamp: string, model: Option<LoadedModel>)
    requires SaveEffect(st, cfg, image, p, now, stamp, model).result.Ok?
    ensures var e := EntryFor(WrittenRecord(cfg, image, p, now, stamp, model), cfg.metadataDir);
      e.Ok? && SaveEffect(st, cfg, image, p, now, stamp, model).after.history == Appended(st.history, e.value)
  {
  }

  /** The plugin's files: three maps and a history file, updated in place by
      the save path and, from the HTTP layer, by delete. */
  class Store {
    const config: StoreConfig
    var images: map<string, Image>
    var sidecars: map<string, Record>
    var history: HistoryFile

    function Contents(): Snapshot
      reads this
    {
      Snapshot(images, sidecars, history)
    }

    ghost predicate Valid()
      reads this
    {
      WellFormed(Contents())
    }

    /** The state the module sets up on import, over the files already on
        disk: the directories keep what they hold, and a missing history file
        is created holding the empty list. A history file that exists is left
        alone, even when it cannot be parsed. */
    constructor (config: StoreConfig, existing: Snapshot)
      requires WellFormed(existing)
      ensures this.config == config
      ensures images == existing.images && sidecars == existing.sidecars
      ensures history == if existing.history.Missing? then Stored([]) else existing.history
      ensures Valid()
    {
      this.config := config;
      images := existing.images;
      sidecars := existing.sidecars;
      if existing.history.Missing? {
        history := Stored([]);
      } else {
        history := existing.history;
      }
    }

    /** `update_history`: load (an unreadable file reads as empty), append one
        summary entry, rewrite the whole file. If the entry cannot be built the
        file is left as it was. */
    method UpdateHistory(metadata: Record) returns (r: Result<Entry>)
      modifies this`history
      ensures r == EntryFor(metadata, config.metadataDir)
      ensures r.Ok? ==> history == Appended(old(history), r.value)
      ensures r.Err? ==> history == old(history)
    {
      var loaded := LoadHistory(history);
      r := EntryFor(metadata, config.metadataDir);
      if r.Ok? {
        loaded := loaded + [r.value];
        history := Stored(loaded);
      }
    }

    /** `save_image_with_metadata`: extract the record, write the image, fill in
        the record's name and path, write the sidecar, append to the history. */
    method SaveImageWithMetadata(image: Image, p: GenerationInput, now: string, stamp: string,
                                 model: Option<LoadedModel>) returns (r: Result<Saved>)
      requires Valid()
      modifies this
      ensures Valid()
      ensures Contents() == SaveEffect(old(Contents()), config, image, p, now, stamp, model).after
      ensures r == SaveEffect(old(Contents()), config, image, p, now, stamp, model).result
    {
      ghost var before := Contents();
      var metadata := ExtractMetadata(image, p, now, model);
      var base := BaseName(stamp, SeedText(metadata.parameters));
      var imagePath := Join(config.imagesDir, ImageFileName(base));
      images := images[ImageFileName(base) := image];
      metadata := metadata.(filename := ImageFileName(base), imagePath := Some(imagePath));
      var jsonPath := Join(config.metadataDir, SidecarFileName(base));
      sidecars := sidecars[SidecarFileName(base) := metadata];
      var entry := UpdateHistory(metadata);
      if entry.Err? {
        r := Err(entry.fault);
      } else {
        r := Ok(Saved(imagePath, jsonPath));
      }
      SaveKeepsWellFormed(before, config, image, p, now, stamp, model);
    }

    /** The selection `create_history_html` renders: load the history, sort the
        loaded list in place, newest first, then keep, in that order, the
        entries whose image file exists. Entries without an image are skipped,
        not removed. */
    method HistorySelection() returns (sel: Selection)
      ensures sel == SelectionOf(history, images.Keys)
    {
      var loaded := LoadHistory(history);
      if loaded == [] {
        return NothingSaved;
      }
      var a := new Entry[|loaded|](k requires 0 <= k < |loaded| => loaded[k]);
      assert a[..] == loaded;
      SortNewestFirstInPlace(a);
      var shown := ShownOnDisk(a, images.Keys);
      return Cards(shown);
    }
  }

  /** The rendering loop's existence test, run over the sorted array: the
      entries whose image file is present, in array order. */
  method ShownOnDisk(a: array<Entry>, files: set<string>) returns (shown: seq<Entry>)
    ensures shown == KeepOnDisk(a[..], files)
  {
    shown := [];
    var i := 0;
    while i < a.Length
      invariant 0 <= i <= a.Length
      invariant shown == KeepOnDisk(a[..i], files)
    {
      if OnDisk(files, a[i].filename) {
        shown := shown + [a[i]];
      }
      assert a[..i + 1][..i] == a[..i];
      i := i + 1;
    }
    assert a[..a.Length] == a[..];
  }
}
